=== FILE: README.md ===
# ScreenshotXY main window, modelled in Dafny

ScreenshotXY is a small Windows tool. It captures the client area of another process's main
window, lets the user drag a rectangle over the captured image, and saves that crop as a BMP, PNG
or JPEG file. The logic sits in the code-behind of its main window
(`ScreenshotXY/MainWindow.xaml.cs`). This project models the four pieces of that logic that do
not depend on Windows:

- **The drag-selection state machine** (`window.dfy`, module `Window`). `MainWindow` is a class
  with the fields of the original: the image flag and pixel size, `dragging`, the two drag corners,
  `hasSelection` and the four selection coordinates. It has one method per event: mouse down, move
  and up, capture and save. Each event method states its whole new state. The class invariant
  `Valid` says that every coordinate a handler can still read lies inside the image. The drag
  corners are readable while dragging, and the stored selection while it is kept.
- **Pointer geometry** (`geometry.dfy`, module `Geometry`). This covers `ClampToImage` and the
  min/max normalisation and zero-area rule of the mouse-up handler.
- **Export** (`export.dfy`, module `Export`). This covers the crop clamp of the save handler, the
  dialog's default file name `crop_{x}_{y}_{w}x{h}`, and the choice of encoder from the file
  name's extension (`Path.GetExtension` and a lower-cased switch).
- **The process picker** (`processes.dfy`, module `Processes`). This is `GetUserProcessNamesForPick`
  over a process table given as input. Eligible processes are kept, given an ".exe" suffix,
  deduplicated ignoring case (the name set keeps the first spelling) and sorted ignoring case.
  The refresh and update handlers that fill the picker are methods of `MainWindow`.
- **Capture-target resolution** (`target.dfy`, module `CaptureTarget`). The box text is trimmed and
  defaulted to "game.exe". A trailing ".exe" is stripped ignoring case. The processes of that name
  are looked up, and the first non-zero main window handle among them is chosen.

`text.dfy` (module `Text`) gives the .NET string operations their meaning:

- `StringComparer.OrdinalIgnoreCase` compares upper-case-folded strings character by character,
  ordering characters by their Unicode code point.
- `ToLowerInvariant` lower-cases letters.
- `Trim` removes the characters of `char.IsWhiteSpace`.
- `int.ToString()` renders a non-negative value in decimal.

Case folding covers ASCII letters only.

The capture handler starts by resolving the target. In the code, the fallback to the first
process's handle (line 210) runs only when every handle is zero. With each handle read once, it
therefore restores a zero handle, so a process name whose processes have no window always ends in
the "no window" message. The model says so (`ResolveTarget`).

A capture drops the selection, but it does not reset the stored drag corners or selection
coordinates. After a capture of a smaller window those coordinates can lie outside the new image.
This is harmless, because `dragging` and `hasSelection` are both false then and nothing reads
them. The invariant is stated for readable coordinates only, and `StaleSelectionScenario` shows
the case.

## Model

| member | source | states |
|---|---|---|
| Geometry.Clamp | ScreenshotXY/MainWindow.xaml.cs:375-380 | the clamped point lies in [0, imgW] x [0, imgH] for any input and is the input itself when that is already inside |
| Geometry.ClampIsNearest | ScreenshotXY/MainWindow.xaml.cs:375-380 | each clamped coordinate is at least as close to the pointer as that coordinate of any point of the image |
| Geometry.ClampIdempotent | ScreenshotXY/MainWindow.xaml.cs:375-380 | clamping a clamped point changes nothing |
| Geometry.Normalize | ScreenshotXY/MainWindow.xaml.cs:345-348 | x1 <= x2 and y1 <= y2; each bound is one of the two corners' coordinates and lies below or above both |
| Geometry.NormalizeSymmetric | ScreenshotXY/MainWindow.xaml.cs:345-348 | the rectangle does not depend on the drag direction |
| Geometry.NormalizeInside | ScreenshotXY/MainWindow.xaml.cs:342-348 | corners inside the image span a rectangle inside the image |
| Geometry.HasAreaIff | ScreenshotXY/MainWindow.xaml.cs:356-363 | a selection is kept iff the corners differ in both coordinates; a click without movement keeps none |
| Geometry.DragAcrossTheEdge | ScreenshotXY/MainWindow.xaml.cs:342-363 | on 800 x 600, (700, 650) and (-50, 500) clamp to (700, 600) and (0, 500) and span (0, 500)-(700, 600), 700 wide and 100 high |
| Export.CropRect | ScreenshotXY/MainWindow.xaml.cs:154-157 | for a W x H bitmap with W, H >= 1: 0 <= x <= W-1, 0 <= y <= H-1, w, h >= 1, x+w <= W, y+h <= H, for any selection |
| Export.CropOfSelection | ScreenshotXY/MainWindow.xaml.cs:154-157 | a selection with area inside the bitmap is cropped exactly as selected |
| Export.ExportFloor | ScreenshotXY/MainWindow.xaml.cs:156-157 | a selection with no width (height) still crops one pixel wide (high) |
| Export.CropFileName | ScreenshotXY/MainWindow.xaml.cs:167 | definition of the dialog's default name crop_{x}_{y}_{w}x{h} with the four numbers in decimal; its meaning is stated by CropFileNameRoundTrip and CropFileNameInjective |
| Export.CropFileNameRoundTrip | ScreenshotXY/MainWindow.xaml.cs:167 | the default name crop_{x}_{y}_{w}x{h} parses back to the crop it was made from |
| Export.CropFileNameInjective | ScreenshotXY/MainWindow.xaml.cs:167 | different crops get different default names |
| Export.Extension | ScreenshotXY/MainWindow.xaml.cs:172 | the extension is empty or a suffix of the path that starts with '.', has no later '.', '/' or '\\', and is more than the dot |
| Export.ExtensionOf | ScreenshotXY/MainWindow.xaml.cs:172 | a name ending in a well-formed extension has exactly that extension |
| Export.NoExtension | ScreenshotXY/MainWindow.xaml.cs:172 | a file name without '.' in its last component has no extension |
| Export.EncoderFor | ScreenshotXY/MainWindow.xaml.cs:172-177 | definition of the switch: ".jpg" and ".jpeg" give JPEG at quality 95, ".bmp" gives BMP, anything else PNG |
| Export.ChooseEncoder | ScreenshotXY/MainWindow.xaml.cs:172-177 | definition of the encoder choice: the switch applied to the lower-cased extension; its properties are stated by ChooseEncoderByExtension and the case lemmas below |
| Export.ChooseEncoderByExtension | ScreenshotXY/MainWindow.xaml.cs:172-177 | the encoder depends only on the lower-cased extension the name ends with |
| Export.JpgIgnoresCase | ScreenshotXY/MainWindow.xaml.cs:172-174 | a name ending in ".JPG" is written as JPEG at quality 95 |
| Export.JpegIgnoresCase | ScreenshotXY/MainWindow.xaml.cs:172-174 | a name ending in ".Jpeg" is written as JPEG at quality 95 |
| Export.BmpIgnoresCase | ScreenshotXY/MainWindow.xaml.cs:172-175 | a name ending in ".BMP" is written as BMP |
| Export.NoExtensionIsPng | ScreenshotXY/MainWindow.xaml.cs:172-176 | a name without an extension is written as PNG |
| Text.Trim | ScreenshotXY/MainWindow.xaml.cs:188 | the result is a slice of the text with only white space around it, neither of its ends is white space, and it is empty iff the text is all white space |
| Text.TrimPadded | ScreenshotXY/MainWindow.xaml.cs:188 | a text with non-blank ends and only white space around it trims to that text |
| Text.TrimIgnoresPadding | ScreenshotXY/MainWindow.xaml.cs:188 | adding white space before and after a text does not change its trim |
| Text.TrimOfTrimmed | ScreenshotXY/MainWindow.xaml.cs:188 | a text with non-blank ends is its own trim |
| Text.Decimal | ScreenshotXY/MainWindow.xaml.cs:167 | the rendering is a non-empty run of digits without a leading zero unless the value is 0 |
| Text.DecimalRoundTrip | ScreenshotXY/MainWindow.xaml.cs:167 | reading the rendered digits back gives the value |
| Text.LessIgnoreCaseAscending | ScreenshotXY/MainWindow.xaml.cs:132 | the sort is ascending and ignores case: "a.exe" comes before "B.exe", "b.exe" not before "A.exe" |
| Text.LexLessIrreflexive | ScreenshotXY/MainWindow.xaml.cs:132 | the sort comparison never puts a name before itself |
| Text.LexLessTransitive | ScreenshotXY/MainWindow.xaml.cs:132 | the sort comparison is transitive |
| Text.LexLessTotal | ScreenshotXY/MainWindow.xaml.cs:132 | any two different keys are ordered one way or the other |
| Text.LexLessAsymmetric | ScreenshotXY/MainWindow.xaml.cs:132 | no two keys are each ordered before the other |
| Text.EndsWithAppended | ScreenshotXY/MainWindow.xaml.cs:108-110 | a name with ".exe" appended ends with ".exe" ignoring case |
| Processes.IsSystemLike | ScreenshotXY/MainWindow.xaml.cs:31-32 | definition of the excluded names: "System" and "Idle", ignoring case |
| Processes.Eligible | ScreenshotXY/MainWindow.xaml.cs:99-106 | definition of the loop's filters: readable, same session, not System or Idle, a main window; used by CandidatesListEveryEligible and PickListOfCandidates |
| Processes.DisplayName | ScreenshotXY/MainWindow.xaml.cs:108-110 | the listed name ends in ".exe" ignoring case and is the process name, or that name with ".exe" appended; it is the process name itself iff that already ends in ".exe" ignoring case |
| Processes.DisplayNameIdempotent | ScreenshotXY/MainWindow.xaml.cs:108-110 | a listed name is listed unchanged, so ".exe" is never appended twice |
| Processes.WithOrWithoutSuffix | ScreenshotXY/MainWindow.xaml.cs:108-112 | "a" and "a.exe" are listed as the same name "a.exe", so they collapse into one entry |
| Processes.Candidates | ScreenshotXY/MainWindow.xaml.cs:97-112 | definition of the name set built by the enumeration loop, in insertion order; its properties are stated by the three lemmas below |
| Processes.CandidatesListEveryEligible | ScreenshotXY/MainWindow.xaml.cs:99-112 | every process of the session with a window, not System or Idle and readable, is in the name set ignoring case |
| Processes.CandidatesDistinct | ScreenshotXY/MainWindow.xaml.cs:97-112 | the name set holds no two names equal ignoring case |
| Processes.CandidatesFirstSpellings | ScreenshotXY/MainWindow.xaml.cs:97-112 | every name in the set is the display name of an eligible process, spelt as the first eligible process with that name ignoring case |
| Processes.SortIgnoreCase | ScreenshotXY/MainWindow.xaml.cs:131-132 | definition of the sort by insertion; SortSpec and SortedIsUnique state what it computes |
| Processes.SortSpec | ScreenshotXY/MainWindow.xaml.cs:131-132 | sorting names distinct ignoring case gives a strictly increasing permutation of them |
| Processes.SortedIsDistinct | ScreenshotXY/MainWindow.xaml.cs:131-132 | a strictly increasing list has no two names equal ignoring case |
| Processes.SortedIsUnique | ScreenshotXY/MainWindow.xaml.cs:131-132 | two strictly increasing arrangements of the same names are equal, so the result does not depend on the sort algorithm |
| Processes.PickListOfCandidates | ScreenshotXY/MainWindow.xaml.cs:94-134 | the sorted name set ends every name in ".exe", lists only and all eligible processes, is distinct and sorted ignoring case |
| Processes.GetUserProcessNamesForPick | ScreenshotXY/MainWindow.xaml.cs:94-134 | the loop returns the sorted name set, with all picker-list properties |
| CaptureTarget.ChosenName | ScreenshotXY/MainWindow.xaml.cs:188-189 | the chosen name is never empty |
| CaptureTarget.LookupName | ScreenshotXY/MainWindow.xaml.cs:190-192 | the lookup name is a prefix of the chosen name, four characters shorter iff that ends with ".exe" ignoring case, else equal |
| CaptureTarget.HandlesByName | ScreenshotXY/MainWindow.xaml.cs:194 | no more handles than processes; everything the capture reads from the lookup is fixed by the table: it is empty iff no process has the name ignoring case (HandlesEmptyIff), all zero iff every match lacks a window (HandlesAllZeroIff), and its first non-zero handle is that of the first match in table order with a window (HandlesFirstWindowIff) |
| CaptureTarget.HandlesEmptyIff | ScreenshotXY/MainWindow.xaml.cs:194-195 | the lookup returns no process iff no process of the table has the lookup name ignoring case |
| CaptureTarget.HandlesAllZeroIff | ScreenshotXY/MainWindow.xaml.cs:194-211 | every returned handle is zero iff every matching process lacks a main window |
| CaptureTarget.HandlesFirstWindowIff | ScreenshotXY/MainWindow.xaml.cs:194-208 | the first non-zero returned handle is the main window of the first matching process, in table order, that has one |
| CaptureTarget.HandlesIgnoreCase | ScreenshotXY/MainWindow.xaml.cs:194 | names equal ignoring case find the same processes |
| CaptureTarget.HandlesByNameFinds | ScreenshotXY/MainWindow.xaml.cs:194 | every process whose name matches contributes its handle |
| CaptureTarget.FirstWindow | ScreenshotXY/MainWindow.xaml.cs:202-208 | the loop returns 0 iff every handle is 0, else the first non-zero handle |
| CaptureTarget.ResolveTarget | ScreenshotXY/MainWindow.xaml.cs:188-216 | stated against the process table: not found (with the chosen name) iff no process has the lookup name; no window iff some do and none has a main window; otherwise the main window of the first matching process, in table order, that has one |
| CaptureTarget.ResolvesInTableIff | ScreenshotXY/MainWindow.xaml.cs:188-216 | the resolution stated on the lookup result and the resolution stated on the process table agree |
| CaptureTarget.ResolvesUniquely | ScreenshotXY/MainWindow.xaml.cs:188-216 | the box text and the process table determine the outcome |
| CaptureTarget.SuffixAgnostic | ScreenshotXY/MainWindow.xaml.cs:188-192 | "name" and "name" + ".exe" in any letter case look up the same name |
| CaptureTarget.ChosenNameIgnoresPadding | ScreenshotXY/MainWindow.xaml.cs:188 | blanks typed before and after the box text do not change the chosen name |
| CaptureTarget.ChosenNameOfPadded | ScreenshotXY/MainWindow.xaml.cs:188-189 | a box holding a name with non-blank ends, with any white space around it, chooses exactly that name; with BlankNameIsGame this fixes the chosen name of every box text |
| CaptureTarget.PaddedNameLooksUpBareName | ScreenshotXY/MainWindow.xaml.cs:188-192 | a name typed with blanks around it and ".exe" in any letter case after it looks up the bare name |
| CaptureTarget.BlankNameIsGame | ScreenshotXY/MainWindow.xaml.cs:188-192 | an empty or blank box chooses "game.exe" and looks up "game" |
| CaptureTarget.ListedNameFindsProcess | ScreenshotXY/MainWindow.xaml.cs:188-194 | choosing the name listed for a process looks up that process's own name and finds its window |
| Window.MainWindow.Valid | ScreenshotXY/MainWindow.xaml.cs:22-29 | class invariant: a non-empty image when one is shown; no drag and no selection without an image; both drag corners inside the image while dragging, with no selection; a kept selection inside the image and with area |
| Window.MainWindow.constructor | ScreenshotXY/MainWindow.xaml.cs:34-40 | the window opens with no image, no drag and no selection, and a filled picker list showing its first entry |
| Window.MainWindow.UpdateProcessList | ScreenshotXY/MainWindow.xaml.cs:87-92 | the current names are appended to the list and the box shows the first entry, or "" for an empty list |
| Window.MainWindow.Refresh | ScreenshotXY/MainWindow.xaml.cs:81-85 | after a refresh the list is exactly the picker list and the box shows its first entry, or "" |
| Window.MainWindow.EnterProcessName | ScreenshotXY/MainWindow.xaml.cs:188 | the box holds what the user typed or picked |
| Window.MainWindow.MouseDown | ScreenshotXY/MainWindow.xaml.cs:315-326 | with an image and the left button held: dragging, no selection, both corners at the clamped point; otherwise nothing changes |
| Window.MainWindow.MouseMove | ScreenshotXY/MainWindow.xaml.cs:328-334 | only the moving corner changes, to the clamped point, and only while dragging with an image |
| Window.MainWindow.MouseUp | ScreenshotXY/MainWindow.xaml.cs:336-363 | a left release during a drag ends it and stores the normalised rectangle of the clamped corners, kept iff it has area; any other release changes nothing |
| Window.MainWindow.Capture | ScreenshotXY/MainWindow.xaml.cs:184-251 | the selection is dropped whatever happens; the target resolves as ResolveTarget says; only a shot of positive size replaces the image and ends the drag |
| Window.MainWindow.TakeShot | ScreenshotXY/MainWindow.xaml.cs:218-245 | a shot at least one pixel in each direction becomes the image, sets its size and ends any drag; any other shot changes nothing |
| Window.MainWindow.SaveCrop | ScreenshotXY/MainWindow.xaml.cs:136-182 | refused without image or without selection; otherwise the crop equals the selection, the offered name is its default name, and the encoder follows the chosen name's extension |
| Window.EmptyBoxFindsGame | ScreenshotXY/MainWindow.xaml.cs:188-216 | an empty box finds the window of a running "game" process |
| Window.TypedBoxLooksUpGame | ScreenshotXY/MainWindow.xaml.cs:188-192 | the box text " game.EXE " looks up "game" |
| Window.TypedNameScenario | ScreenshotXY/MainWindow.xaml.cs:184-251 | typing " game.EXE " into the box and capturing a 640 x 480 shot takes window 42 of the running "game" process |
| Window.DragCropName | ScreenshotXY/MainWindow.xaml.cs:167 | the 700 x 100 crop at (0, 500) is offered as crop_0_500_700x100 |
| Window.DragAcrossTheEdgeScenario | ScreenshotXY/MainWindow.xaml.cs:136-177 | capture 800 x 600, drag (700, 650) to (-50, 500), save as *.JPG: crop (0, 500, 700, 100), name crop_0_500_700x100, JPEG |
| Window.StaleSelectionScenario | ScreenshotXY/MainWindow.xaml.cs:184-251 | after a later 100 x 100 capture the old selection's x2 = 700 lies outside the image, and saving is refused |

## Left out

- Reading the screen is not modelled. This covers `ReadScreenImage`, the unused
  `CaptureWindowBitmap`, GDI and PrintWindow. The shot is an input of `Capture`: a bitmap size or
  an exception. A zero-sized bitmap counts as an exception, because `Bitmap` refuses that size.
- The Win32 declarations and the bitmap conversion helper are not part of this model.
- Hotkey registration and dispatch are not modelled. The F12 hotkey only calls the capture
  handler.
- Pure UI code is not modelled: selection drawing, the info box text, window fitting, message
  boxes and the size label. None of it changes the modelled state.
- The save dialog is an input of `SaveCrop`: cancelled, or a chosen path. Writing the encoded
  file is not modelled.
- Enumerating processes and `GetProcessesByName` are inputs: a table of name, session, main window
  handle and readability. The table is a snapshot, and each handle is read once. .NET caches only a
  non-zero `MainWindowHandle`, so line 210 may read a window that appeared after the loop read
  zero; the model does not capture that.
- A process whose properties throw while the capture handler reads its window handle is not
  modelled. That exception escapes the handler and ends the application.
- Window.MainWindow.MouseUp: pointer positions are whole pixels. The original's `double`
  positions and `Math.Round` (banker's rounding) of the corners are not modelled. On whole pixels
  the rounding is the identity.
- Window.MainWindow.constructor: the process list is static in the original and shared by every
  window. The model keeps it per window, starting empty.
- Text.Fold: case-insensitive comparison folds ASCII letters only; every non-ASCII character
  compares by code point. .NET's OrdinalIgnoreCase also folds letters such as é/É, which the model
  does not.
- Text.LexLess: characters are Unicode code points. .NET's ordinal comparison orders UTF-16 code
  units, so a character outside the Basic Multilingual Plane (a surrogate pair, 0xD800-0xDFFF)
  sorts before the characters U+E000-U+FFFF there and after them here. Names made only of
  characters below U+D800 sort the same in both.
- CaptureTarget.ChosenName: WPF's `ComboBox.Text` is never null, so the fallback to the selected
  item is not modelled.
- CaptureTarget.ListedNameFindsProcess: requires a process name without surrounding blanks and
  without an ".exe" ending of its own. A process whose name already ends in ".exe" is listed
  unchanged, then looked up without that ending, and is not found.
- Integers are unbounded. The 32-bit arithmetic of the crop clamp cannot overflow for bitmap sizes
  Windows produces.

=== FILE: export.dfy ===
/** What BtnSaveCrop_Click derives before it writes a file: the crop rectangle re-clamped to the
    bitmap, the default file name offered by the save dialog, and the encoder chosen from the
    extension of the file name the user picked. */
module Export {
  import opened Text
  import opened Geometry

  /** The Int32Rect handed to CroppedBitmap: origin (x, y), size w x h. */
  datatype Crop = Crop(x: int, y: int, w: int, h: int)

  /** The crop of selection `sel` on a width x height bitmap: the origin is cut to the last pixel,
      the size to what is left of the bitmap and floored at one pixel. */
  function CropRect(sel: Rect, width: int, height: int): (c: Crop)
    requires 1 <= width && 1 <= height
    ensures 0 <= c.x <= width - 1 && 0 <= c.y <= height - 1
    ensures 1 <= c.w && c.x + c.w <= width
    ensures 1 <= c.h && c.y + c.h <= height
  {
    var x := Max(0, Min(sel.x1, width - 1));
    var y := Max(0, Min(sel.y1, height - 1));
    var w := Max(1, Min(sel.x2 - sel.x1, width - x));
    var h := Max(1, Min(sel.y2 - sel.y1, height - y));
    Crop(x, y, w, h)
  }

  /** A selection with an area that lies inside the bitmap is cropped exactly as selected. */
  lemma CropOfSelection(sel: Rect, width: int, height: int)
    requires 1 <= width && 1 <= height
    requires RectInside(sel, width, height) && sel.x1 < sel.x2 && sel.y1 < sel.y2
    ensures CropRect(sel, width, height) == Crop(sel.x1, sel.y1, sel.x2 - sel.x1, sel.y2 - sel.y1)
  {
  }

  /** A selection without width or height still gives a one-pixel-wide or one-pixel-high crop. */
  lemma ExportFloor(sel: Rect, width: int, height: int)
    requires 1 <= width && 1 <= height
    ensures sel.x2 - sel.x1 <= 0 ==> CropRect(sel, width, height).w == 1
    ensures sel.y2 - sel.y1 <= 0 ==> CropRect(sel, width, height).h == 1
  {
  }

  /** The dialog's default name, $"crop_{x}_{y}_{w}x{h}". */
  function CropFileName(c: Crop): string
    requires 0 <= c.x && 0 <= c.y && 0 <= c.w && 0 <= c.h
  {
    "crop_" + (Decimal(c.x) + ("_" + (Decimal(c.y) + ("_" + (Decimal(c.w) + ("x" + Decimal(c.h)))))))
  }

  /** Position of the first `c` in `s`, or |s| when there is none. */
  function IndexOf(s: string, c: char): (i: nat)
    ensures i <= |s|
    ensures forall k :: 0 <= k < i ==> s[k] != c
    ensures i < |s| ==> s[i] == c
    decreases |s|
  {
    if s == [] then 0 else if s[0] == c then 0 else 1 + IndexOf(s[1..], c)
  }

  /** A string cut at its first occurrence of a separator. */
  datatype Split = NoSplit | Split(before: string, after: string)

  function SplitAt(s: string, c: char): Split {
    var i := IndexOf(s, c);
    if i == |s| then NoSplit else Split(s[..i], s[i + 1..])
  }

  /** A non-empty run of decimal digits. */
  predicate IsNumber(s: string) {
    s != [] && AllDigits(s)
  }

  datatype ParsedName = NotACropName | CropName(crop: Crop)

  /** Reads a default crop name back: "crop_", then four runs of digits separated by '_', '_'
      and 'x'. */
  function ParseCropFileName(s: string): ParsedName {
    if |s| < 5 || s[..5] != "crop_" then NotACropName else ParseFields(s[5..])
  }

  function ParseFields(a: string): ParsedName {
    match SplitAt(a, '_')
    case NoSplit => NotACropName
    case Split(xs, b) =>
      match SplitAt(b, '_')
      case NoSplit => NotACropName
      case Split(ys, c) =>
        match SplitAt(c, 'x')
        case NoSplit => NotACropName
        case Split(ws, hs) =>
          if IsNumber(xs) && IsNumber(ys) && IsNumber(ws) && IsNumber(hs)
          then CropName(Crop(DecimalValue(xs), DecimalValue(ys), DecimalValue(ws), DecimalValue(hs)))
          else NotACropName
  }

  /** Cutting "digits SEP rest" at the first SEP gives back the digits and the rest. */
  lemma SplitAfterDigits(d: string, c: char, rest: string)
    requires AllDigits(d) && !IsDigit(c)
    ensures SplitAt(d + ([c] + rest), c) == Split(d, rest)
  {
    var s := d + ([c] + rest);
    assert s[|d|] == c;
    assert forall k :: 0 <= k < |d| ==> s[k] == d[k];
    assert IndexOf(s, c) == |d|;
    assert s[..|d|] == d;
    assert s[|d| + 1..] == rest;
  }

  /** The default name determines the crop it was made from. */
  lemma CropFileNameRoundTrip(c: Crop)
    requires 0 <= c.x && 0 <= c.y && 0 <= c.w && 0 <= c.h
    ensures ParseCropFileName(CropFileName(c)) == CropName(c)
  {
    var X, Y, W, H := Decimal(c.x), Decimal(c.y), Decimal(c.w), Decimal(c.h);
    var cc := W + ("x" + H);
    var b := Y + ("_" + cc);
    var a := X + ("_" + b);
    assert CropFileName(c) == "crop_" + a;
    assert ("crop_" + a)[..5] == "crop_" && ("crop_" + a)[5..] == a;
    SplitAfterDigits(X, '_', b);
    SplitAfterDigits(Y, '_', cc);
    SplitAfterDigits(W, 'x', H);
    DecimalRoundTrip(c.x);
    DecimalRoundTrip(c.y);
    DecimalRoundTrip(c.w);
    DecimalRoundTrip(c.h);
  }

  /** Two different crops are offered under two different default names. */
  lemma CropFileNameInjective(c: Crop, d: Crop)
    requires 0 <= c.x && 0 <= c.y && 0 <= c.w && 0 <= c.h
    requires 0 <= d.x && 0 <= d.y && 0 <= d.w && 0 <= d.h
    requires CropFileName(c) == CropFileName(d)
    ensures c == d
  {
    CropFileNameRoundTrip(c);
    CropFileNameRoundTrip(d);
  }

  /** The characters at which Path.GetExtension stops scanning backwards. */
  predicate IsMark(c: char) {
    c == '.' || c == '/' || c == '\\'
  }

  /** Position of the last mark in s[..n], or -1 when there is none. */
  function LastMark(s: string, n: nat): (k: int)
    requires n <= |s|
    ensures -1 <= k < n
    ensures k >= 0 ==> IsMark(s[k])
    ensures forall j :: k < j < n ==> !IsMark(s[j])
    decreases n
  {
    if n == 0 then -1 else if IsMark(s[n - 1]) then n - 1 else LastMark(s, n - 1)
  }

  /** Path.GetExtension: from the last '.' after the last directory separator to the end,
      or empty when there is no such '.' or it is the last character. */
  function Extension(path: string): (e: string)
    ensures e != [] ==> 2 <= |e| <= |path| && e == path[|path| - |e|..] && e[0] == '.'
    ensures forall k :: 1 <= k < |e| ==> !IsMark(e[k])
  {
    var k := LastMark(path, |path|);
    if 0 <= k < |path| - 1 && path[k] == '.' then path[k..] else []
  }

  /** A file name ending in a well-formed extension has exactly that extension, whatever the
      directory and stem before it. */
  lemma ExtensionOf(stem: string, ext: string)
    requires 2 <= |ext| && ext[0] == '.'
    requires forall k :: 1 <= k < |ext| ==> !IsMark(ext[k])
    ensures Extension(stem + ext) == ext
  {
    var s := stem + ext;
    var k := LastMark(s, |s|);
    assert IsMark(s[|stem|]);
    assert forall j :: |stem| < j < |s| ==> s[j] == ext[j - |stem|];
    assert s[|stem|..] == ext;
  }

  /** A file name whose last component holds no '.' has no extension. */
  lemma NoExtension(dir: string, name: string)
    requires forall k :: 0 <= k < |name| ==> !IsMark(name[k])
    ensures Extension(dir + "\\" + name) == []
  {
    var s := dir + "\\" + name;
    var k := LastMark(s, |s|);
    assert IsMark(s[|dir|]);
    assert forall j :: |dir| < j < |s| ==> s[j] == name[j - |dir| - 1];
  }

  /** The encoders of the save handler; JPEG is written at quality 95. */
  datatype Encoder = Jpeg(quality: nat) | Bmp | Png

  /** The switch on the lower-cased extension. */
  function EncoderFor(ext: string): Encoder {
    if ext == ".jpg" || ext == ".jpeg" then Jpeg(95)
    else if ext == ".bmp" then Bmp
    else Png
  }

  function ChooseEncoder(path: string): Encoder {
    EncoderFor(ToLowerInvariant(Extension(path)))
  }

  /** The encoder depends only on the extension the name ends with, in any letter case. */
  lemma ChooseEncoderByExtension(stem: string, ext: string)
    requires 2 <= |ext| && ext[0] == '.'
    requires forall k :: 1 <= k < |ext| ==> !IsMark(ext[k])
    ensures ChooseEncoder(stem + ext) == EncoderFor(ToLowerInvariant(ext))
  {
    ExtensionOf(stem, ext);
  }

  lemma LowerJpg()
    ensures ToLowerInvariant(".JPG") == ".jpg"
  {
    var m := ToLowerInvariant(".JPG");
    assert |m| == 4;
    assert m[1] == Lower('J') == 'j';
    assert m[2] == Lower('P') == 'p';
    assert m[3] == Lower('G') == 'g';
  }

  /** ".JPG" selects the JPEG encoder, like ".jpg". */
  lemma JpgIgnoresCase(stem: string)
    ensures ChooseEncoder(stem + ".JPG") == Jpeg(95)
  {
    ChooseEncoderByExtension(stem, ".JPG");
    LowerJpg();
  }

  lemma LowerJpeg()
    ensures ToLowerInvariant(".Jpeg") == ".jpeg"
  {
    var m := ToLowerInvariant(".Jpeg");
    assert |m| == 5;
    assert m[1] == Lower('J') == 'j';
    assert m[0] == '.' && m[2] == 'p' && m[3] == 'e' && m[4] == 'g';
  }

  /** ".Jpeg" selects the JPEG encoder, like ".jpeg". */
  lemma JpegIgnoresCase(stem: string)
    ensures ChooseEncoder(stem + ".Jpeg") == Jpeg(95)
  {
    ChooseEncoderByExtension(stem, ".Jpeg");
    LowerJpeg();
  }

  lemma LowerBmp()
    ensures ToLowerInvariant(".BMP") == ".bmp"
  {
    var m := ToLowerInvariant(".BMP");
    assert |m| == 4;
    assert m[1] == Lower('B') == 'b';
    assert m[2] == Lower('M') == 'm';
    assert m[3] == Lower('P') == 'p';
  }

  /** ".BMP" selects the BMP encoder, like ".bmp". */
  lemma BmpIgnoresCase(stem: string)
    ensures ChooseEncoder(stem + ".BMP") == Bmp
  {
    ChooseEncoderByExtension(stem, ".BMP");
    LowerBmp();
  }

  /** A name without an extension is written as PNG. */
  lemma NoExtensionIsPng(dir: string, name: string)
    requires forall k :: 0 <= k < |name| ==> !IsMark(name[k])
    ensures ChooseEncoder(dir + "\\" + name) == Png
  {
    NoExtension(dir, name);
  }
}

=== FILE: geometry.dfy ===
/** Image-pixel geometry of the drag selection: clamping a pointer position into the image
    (MainWindow.ClampToImage) and normalising the two drag corners into a rectangle
    (the min/max step of Image_MouseUp).  Coordinates are whole pixels. */
module Geometry {

  datatype Point = Point(x: int, y: int)

  /** A rectangle by its corners; normalised when x1 <= x2 and y1 <= y2. */
  datatype Rect = Rect(x1: int, y1: int, x2: int, y2: int)

  function Min(a: int, b: int): int { if a <= b then a else b }

  function Max(a: int, b: int): int { if a >= b then a else b }

  /** The point lies in the closed box [0, w] x [0, h]. */
  predicate Inside(p: Point, w: int, h: int) {
    0 <= p.x <= w && 0 <= p.y <= h
  }

  /** Both corners of `r` lie in [0, w] x [0, h]. */
  predicate RectInside(r: Rect, w: int, h: int) {
    0 <= r.x1 <= w && 0 <= r.x2 <= w && 0 <= r.y1 <= h && 0 <= r.y2 <= h
  }

  /** ClampToImage: each coordinate cut to [0, w] and [0, h] by Math.Max(0, Math.Min(v, bound)). */
  function Clamp(p: Point, w: int, h: int): (r: Point)
    ensures 0 <= w && 0 <= h ==> Inside(r, w, h)
    ensures Inside(p, w, h) ==> r == p
  {
    Point(Max(0, Min(p.x, w)), Max(0, Min(p.y, h)))
  }

  function Abs(v: int): nat { if v < 0 then -v else v }

  /** The clamped point is, coordinate by coordinate, the point of the image nearest to `p`. */
  lemma ClampIsNearest(p: Point, w: int, h: int, q: Point)
    requires Inside(q, w, h)
    ensures Abs(Clamp(p, w, h).x - p.x) <= Abs(q.x - p.x)
    ensures Abs(Clamp(p, w, h).y - p.y) <= Abs(q.y - p.y)
  {
  }

  /** Clamping twice is clamping once. */
  lemma ClampIdempotent(p: Point, w: int, h: int)
    requires 0 <= w && 0 <= h
    ensures Clamp(Clamp(p, w, h), w, h) == Clamp(p, w, h)
  {
  }

  /** The rectangle spanned by two drag corners, taken coordinate-wise with min and max. */
  function Normalize(a: Point, b: Point): (r: Rect)
    ensures r.x1 <= r.x2 && r.y1 <= r.y2
    ensures r.x1 <= a.x && r.x1 <= b.x && (r.x1 == a.x || r.x1 == b.x)
    ensures r.y1 <= a.y && r.y1 <= b.y && (r.y1 == a.y || r.y1 == b.y)
    ensures r.x2 >= a.x && r.x2 >= b.x && (r.x2 == a.x || r.x2 == b.x)
    ensures r.y2 >= a.y && r.y2 >= b.y && (r.y2 == a.y || r.y2 == b.y)
  {
    Rect(Min(a.x, b.x), Min(a.y, b.y), Max(a.x, b.x), Max(a.y, b.y))
  }

  /** The width and height Image_MouseUp derives: Math.Max(0, x2 - x1) and Math.Max(0, y2 - y1). */
  function Width(r: Rect): nat { Max(0, r.x2 - r.x1) }

  function Height(r: Rect): nat { Max(0, r.y2 - r.y1) }

  /** The selection is kept only when it has both a positive width and a positive height. */
  predicate HasArea(r: Rect) {
    Width(r) > 0 && Height(r) > 0
  }

  /** The rectangle does not depend on the direction of the drag. */
  lemma NormalizeSymmetric(a: Point, b: Point)
    ensures Normalize(a, b) == Normalize(b, a)
  {
  }

  /** Two corners inside the image span a rectangle inside the image. */
  lemma NormalizeInside(a: Point, b: Point, w: int, h: int)
    requires Inside(a, w, h) && Inside(b, w, h)
    ensures RectInside(Normalize(a, b), w, h)
  {
  }

  /** A drag has an area exactly when its corners differ in both coordinates; in particular a
      click without movement selects nothing. */
  lemma HasAreaIff(a: Point, b: Point)
    ensures HasArea(Normalize(a, b)) <==> a.x != b.x && a.y != b.y
    ensures !HasArea(Normalize(a, a))
  {
  }

  /** On an 800 x 600 image, dragging from (700, 650) to (-50, 500) selects (0, 500)-(700, 600),
      700 pixels wide and 100 high. */
  lemma DragAcrossTheEdge()
    ensures Clamp(Point(700, 650), 800, 600) == Point(700, 600)
    ensures Clamp(Point(-50, 500), 800, 600) == Point(0, 500)
    ensures Normalize(Point(700, 600), Point(0, 500)) == Rect(0, 500, 700, 600)
    ensures Width(Rect(0, 500, 700, 600)) == 700 && Height(Rect(0, 500, 700, 600)) == 100
  {
  }
}

=== FILE: processes.dfy ===
/** The list of process names offered in the picker (GetUserProcessNamesForPick): processes
    of the caller's session that have a main window, minus the pseudo-processes "System" and
    "Idle", each shown with an ".exe" suffix, without duplicates ignoring case, sorted ignoring
    case.  The operating system's process table is an input sequence. */
module Processes {
  import opened Text

  /** One row of the process table, as far as the picker reads it.  `mainWindow` is the main
      window handle (0 when there is none); `accessible` is false for a process whose
      properties throw when read. */
  datatype ProcessInfo = ProcessInfo(name: string, sessionId: int, mainWindow: int, accessible: bool)

  /** Membership in SystemLikeNames, a set compared ignoring case. */
  predicate IsSystemLike(name: string) {
    SameIgnoreCase(name, "System") || SameIgnoreCase(name, "Idle")
  }

  /** The process passes every filter of the enumeration loop. */
  predicate Eligible(p: ProcessInfo, session: int) {
    p.accessible && p.sessionId == session && !IsSystemLike(p.name) && p.mainWindow != 0
  }

  /** The name listed for a process: its own name when that already ends in ".exe" in any
      letter case, otherwise the name with ".exe" appended. */
  function DisplayName(name: string): (r: string)
    ensures EndsWithIgnoreCase(r, ".exe")
    ensures r == name || r == name + ".exe"
    ensures r == name <==> EndsWithIgnoreCase(name, ".exe")
  {
    EndsWithAppended(name, ".exe");
    if EndsWithIgnoreCase(name, ".exe") then name else name + ".exe"
  }

  /** A listed name is listed as itself: the suffix is never doubled. */
  lemma DisplayNameIdempotent(name: string)
    ensures DisplayName(DisplayName(name)) == DisplayName(name)
  {
  }

  /** A process "a" and a process "a.exe" are listed under the same name, so the picker shows
      them as one entry. */
  lemma WithOrWithoutSuffix(name: string)
    requires !EndsWithIgnoreCase(name, ".exe")
    ensures DisplayName(name) == DisplayName(name + ".exe") == name + ".exe"
  {
    EndsWithAppended(name, ".exe");
  }

  /** HashSet<string>(OrdinalIgnoreCase).Contains */
  predicate ContainsIgnoreCase(s: seq<string>, n: string) {
    exists i :: 0 <= i < |s| && SameIgnoreCase(s[i], n)
  }

  /** HashSet.Add: a name equal ignoring case to one already held is dropped, so the set keeps
      the spelling added first. */
  function AddIgnoreCase(s: seq<string>, n: string): seq<string> {
    if ContainsIgnoreCase(s, n) then s else s + [n]
  }

  /** The contents of the name set after the enumeration loop, in the order names were first
      added. */
  function Candidates(procs: seq<ProcessInfo>, session: int): seq<string>
    decreases |procs|
  {
    if procs == [] then []
    else
      var before := Candidates(procs[..|procs| - 1], session);
      var p := procs[|procs| - 1];
      if Eligible(p, session) then AddIgnoreCase(before, DisplayName(p.name)) else before
  }

  /** `n` is the display name of the eligible process at `k`, and no eligible process before
      it has a display name equal to `n` ignoring case. */
  ghost predicate FirstSpelling(procs: seq<ProcessInfo>, session: int, k: int, n: string) {
    0 <= k < |procs| && Eligible(procs[k], session) && DisplayName(procs[k].name) == n
    && forall j :: 0 <= j < k && Eligible(procs[j], session) ==> !SameIgnoreCase(DisplayName(procs[j].name), n)
  }

  /** `n` is the first spelling of some eligible process's display name. */
  ghost predicate IsFirstSpelling(procs: seq<ProcessInfo>, session: int, n: string) {
    exists k :: FirstSpelling(procs, session, k, n)
  }

  /** Every name is the first spelling of some eligible process's display name. */
  ghost predicate FirstSpellings(names: seq<string>, procs: seq<ProcessInfo>, session: int) {
    forall i :: 0 <= i < |names| ==> IsFirstSpelling(procs, session, names[i])
  }

  /** Every eligible process is listed, ignoring case. */
  ghost predicate ListsEveryEligible(names: seq<string>, procs: seq<ProcessInfo>, session: int) {
    forall k :: 0 <= k < |procs| && Eligible(procs[k], session) ==>
      ContainsIgnoreCase(names, DisplayName(procs[k].name))
  }

  predicate DistinctIgnoreCase(s: seq<string>) {
    forall i, j :: 0 <= i < j < |s| ==> !SameIgnoreCase(s[i], s[j])
  }

  /** Candidates of a non-empty table, in terms of those of the table without its last row. */
  lemma CandidatesStep(procs: seq<ProcessInfo>, session: int)
    requires procs != []
    ensures var m := |procs| - 1;
      var before := Candidates(procs[..m], session);
      var n := DisplayName(procs[m].name);
      var c := Candidates(procs, session);
      && (forall j :: 0 <= j < m ==> procs[..m][j] == procs[j])
      && (forall i :: 0 <= i < |before| ==> c[i] == before[i])
      && (c == before || (c == before + [n] && !ContainsIgnoreCase(before, n) && Eligible(procs[m], session)))
      && (Eligible(procs[m], session) && !ContainsIgnoreCase(before, n) ==> c == before + [n])
  {
  }

  /** Every eligible process's display name is in the name set, ignoring case. */
  lemma {:induction false} CandidatesListEveryEligible(procs: seq<ProcessInfo>, session: int)
    ensures ListsEveryEligible(Candidates(procs, session), procs, session)
    decreases |procs|
  {
    if procs != [] {
      var m := |procs| - 1;
      var n := DisplayName(procs[m].name);
      var before := Candidates(procs[..m], session);
      var c := Candidates(procs, session);
      CandidatesListEveryEligible(procs[..m], session);
      CandidatesStep(procs, session);
      forall k | 0 <= k < |procs| && Eligible(procs[k], session)
        ensures ContainsIgnoreCase(c, DisplayName(procs[k].name))
      {
        if k < m {
          assert ContainsIgnoreCase(before, DisplayName(procs[..m][k].name));
          var t :| 0 <= t < |before| && SameIgnoreCase(before[t], DisplayName(procs[k].name));
          assert SameIgnoreCase(c[t], DisplayName(procs[k].name));
        } else if ContainsIgnoreCase(before, n) {
          var t :| 0 <= t < |before| && SameIgnoreCase(before[t], n);
          assert SameIgnoreCase(c[t], n);
        } else {
          assert SameIgnoreCase(c[|before|], n);
        }
      }
    }
  }

  /** The name set holds no two names equal ignoring case. */
  lemma {:induction false} CandidatesDistinct(procs: seq<ProcessInfo>, session: int)
    ensures DistinctIgnoreCase(Candidates(procs, session))
    decreases |procs|
  {
    if procs != [] {
      var m := |procs| - 1;
      CandidatesDistinct(procs[..m], session);
      CandidatesStep(procs, session);
    }
  }

  /** Every name in the set is the first spelling of an eligible process's display name. */
  lemma {:induction false} CandidatesFirstSpellings(procs: seq<ProcessInfo>, session: int)
    ensures FirstSpellings(Candidates(procs, session), procs, session)
    decreases |procs|
  {
    if procs != [] {
      var m := |procs| - 1;
      var q := procs[..m];
      var n := DisplayName(procs[m].name);
      var before := Candidates(q, session);
      var c := Candidates(procs, session);
      CandidatesFirstSpellings(q, session);
      CandidatesListEveryEligible(q, session);
      CandidatesStep(procs, session);
      forall i | 0 <= i < |c|
        ensures IsFirstSpelling(procs, session, c[i])
      {
        if i < |before| {
          assert IsFirstSpelling(q, session, before[i]);
          var k :| FirstSpelling(q, session, k, before[i]);
          assert FirstSpelling(procs, session, k, c[i]);
        } else {
          forall j | 0 <= j < m && Eligible(procs[j], session)
            ensures !SameIgnoreCase(DisplayName(procs[j].name), n)
          {
            assert ContainsIgnoreCase(before, DisplayName(q[j].name));
          }
          assert FirstSpelling(procs, session, m, c[i]);
        }
      }
    }
  }

  /** Strictly increasing under OrdinalIgnoreCase. */
  predicate StrictlySorted(s: seq<string>) {
    forall i, j :: 0 <= i < j < |s| ==> LessIgnoreCase(s[i], s[j])
  }

  /** Inserts `x` in front of the first element it compares below. */
  function Insert(x: string, s: seq<string>): seq<string>
    decreases |s|
  {
    if s == [] || LessIgnoreCase(x, s[0]) then [x] + s else [s[0]] + Insert(x, s[1..])
  }

  /** List.Sort(StringComparer.OrdinalIgnoreCase), written as an insertion sort; for names
      that are distinct ignoring case every sorting algorithm gives this one result
      (SortedIsUnique). */
  function SortIgnoreCase(s: seq<string>): seq<string>
    decreases |s|
  {
    if s == [] then [] else Insert(s[0], SortIgnoreCase(s[1..]))
  }

  /** A name below every name of a strictly increasing list can go in front of it. */
  lemma ConsSorted(h: string, t: seq<string>)
    requires StrictlySorted(t)
    requires forall j :: 0 <= j < |t| ==> LessIgnoreCase(h, t[j])
    ensures StrictlySorted([h] + t)
  {
    var r := [h] + t;
    forall i, j | 0 <= i < j < |r| ensures LessIgnoreCase(r[i], r[j]) {
      if i == 0 {
        assert r[j] == t[j - 1];
      } else {
        assert r[i] == t[i - 1] && r[j] == t[j - 1];
      }
    }
  }

  /** Inserting adds the name once and keeps every other one. */
  lemma {:induction false} InsertMultiset(x: string, s: seq<string>)
    ensures multiset(Insert(x, s)) == multiset(s) + multiset{x}
    decreases |s|
  {
    if s != [] && !LessIgnoreCase(x, s[0]) {
      InsertMultiset(x, s[1..]);
      assert s == [s[0]] + s[1..];
    }
  }

  lemma {:induction false} InsertSorted(x: string, s: seq<string>)
    requires StrictlySorted(s)
    requires forall i :: 0 <= i < |s| ==> !SameIgnoreCase(s[i], x)
    ensures StrictlySorted(Insert(x, s))
    decreases |s|
  {
    if s == [] {
    } else if LessIgnoreCase(x, s[0]) {
      forall j | 0 <= j < |s| ensures LessIgnoreCase(x, s[j]) {
        if j > 0 {
          LexLessTransitive(Fold(x), Fold(s[0]), Fold(s[j]));
        }
      }
      ConsSorted(x, s);
    } else {
      LexLessTotal(Fold(x), Fold(s[0]));
      var rest := s[1..];
      InsertSorted(x, rest);
      InsertMultiset(x, rest);
      var t := Insert(x, rest);
      forall j | 0 <= j < |t| ensures LessIgnoreCase(s[0], t[j]) {
        assert t[j] in multiset(t);
        if t[j] != x {
          assert t[j] in multiset(rest);
          var m :| 0 <= m < |rest| && rest[m] == t[j];
          assert s[m + 1] == t[j];
        }
      }
      ConsSorted(s[0], t);
    }
  }

  /** A rearrangement of the names after the head of a distinct list holds none equal to the
      head ignoring case. */
  lemma DistinctFromHead(s: seq<string>, rest: seq<string>)
    requires DistinctIgnoreCase(s) && s != []
    requires multiset(rest) == multiset(s[1..])
    ensures forall i :: 0 <= i < |rest| ==> !SameIgnoreCase(rest[i], s[0])
  {
    forall i | 0 <= i < |rest| ensures !SameIgnoreCase(rest[i], s[0]) {
      assert rest[i] in multiset(s[1..]);
      var j :| 0 <= j < |s[1..]| && s[1..][j] == rest[i];
      assert !SameIgnoreCase(s[0], s[j + 1]);
    }
  }

  lemma TailDistinct(s: seq<string>)
    requires DistinctIgnoreCase(s) && s != []
    ensures DistinctIgnoreCase(s[1..])
  {
    forall i, j | 0 <= i < j < |s[1..]| ensures !SameIgnoreCase(s[1..][i], s[1..][j]) {
      assert s[1..][i] == s[i + 1] && s[1..][j] == s[j + 1];
    }
  }

  /** Sorting names that are distinct ignoring case yields a strictly increasing permutation. */
  lemma {:induction false} SortSpec(s: seq<string>)
    requires DistinctIgnoreCase(s)
    ensures StrictlySorted(SortIgnoreCase(s))
    ensures multiset(SortIgnoreCase(s)) == multiset(s)
    decreases |s|
  {
    if s != [] {
      var rest := SortIgnoreCase(s[1..]);
      TailDistinct(s);
      SortSpec(s[1..]);
      DistinctFromHead(s, rest);
      InsertSorted(s[0], rest);
      InsertMultiset(s[0], rest);
      assert s == [s[0]] + s[1..];
      assert multiset(s) == multiset(s[1..]) + multiset{s[0]};
    }
  }

  /** A strictly increasing list holds no two names equal ignoring case. */
  lemma SortedIsDistinct(s: seq<string>)
    requires StrictlySorted(s)
    ensures DistinctIgnoreCase(s)
  {
    forall i, j | 0 <= i < j < |s| ensures !SameIgnoreCase(s[i], s[j]) {
      LexLessIrreflexive(Fold(s[i]));
    }
  }

  /** Two strictly increasing arrangements of the same names start with the same name. */
  lemma SortedSameHead(a: seq<string>, b: seq<string>)
    requires StrictlySorted(a) && StrictlySorted(b)
    requires multiset(a) == multiset(b) && a != []
    ensures b != [] && a[0] == b[0]
  {
    assert a[0] in multiset(b);
    assert b != [] && b[0] in multiset(a);
    if a[0] != b[0] {
      var i :| 0 <= i < |b| && b[i] == a[0];
      var j :| 0 <= j < |a| && a[j] == b[0];
      assert LessIgnoreCase(b[0], a[0]) && LessIgnoreCase(a[0], b[0]);
      LexLessAsymmetric(Fold(b[0]), Fold(a[0]));
      assert false;
    }
  }

  lemma TailSorted(a: seq<string>)
    requires StrictlySorted(a) && a != []
    ensures StrictlySorted(a[1..])
  {
    forall i, j | 0 <= i < j < |a[1..]| ensures LessIgnoreCase(a[1..][i], a[1..][j]) {
      assert a[1..][i] == a[i + 1] && a[1..][j] == a[j + 1];
    }
  }

  /** Two lists of the same names with the same head hold the same names after it. */
  lemma SameTail(a: seq<string>, b: seq<string>)
    requires multiset(a) == multiset(b) && a != [] && b != [] && a[0] == b[0]
    ensures multiset(a[1..]) == multiset(b[1..])
  {
    assert a == [a[0]] + a[1..];
    assert b == [b[0]] + b[1..];
    assert multiset(a[1..]) == multiset(a) - multiset{a[0]};
    assert multiset(b[1..]) == multiset(b) - multiset{b[0]};
  }

  /** Two strictly increasing arrangements of the same names are the same list, so the result
      does not depend on which sorting algorithm List.Sort uses. */
  lemma {:induction false} SortedIsUnique(a: seq<string>, b: seq<string>)
    requires StrictlySorted(a) && StrictlySorted(b)
    requires multiset(a) == multiset(b)
    ensures a == b
    decreases |a|
  {
    if a == [] {
      assert |b| == |multiset(b)| == 0;
    } else {
      SortedSameHead(a, b);
      SameTail(a, b);
      TailSorted(a);
      TailSorted(b);
      SortedIsUnique(a[1..], b[1..]);
      assert a == [a[0]] + a[1..] && b == [b[0]] + b[1..];
    }
  }

  /** What the picker list promises about every name it holds and every process it lists. */
  ghost predicate IsPickList(names: seq<string>, procs: seq<ProcessInfo>, session: int) {
    && (forall i :: 0 <= i < |names| ==> EndsWithIgnoreCase(names[i], ".exe"))
    && FirstSpellings(names, procs, session)
    && ListsEveryEligible(names, procs, session)
    && DistinctIgnoreCase(names)
    && StrictlySorted(names)
  }

  /** Every name of a rearrangement is still a first spelling. */
  lemma PermutedKeepsFirstSpellings(c: seq<string>, names: seq<string>, procs: seq<ProcessInfo>, session: int)
    requires multiset(names) == multiset(c)
    requires FirstSpellings(c, procs, session)
    ensures FirstSpellings(names, procs, session)
  {
    forall i | 0 <= i < |names|
      ensures IsFirstSpelling(procs, session, names[i])
    {
      assert names[i] in multiset(c);
      var t :| 0 <= t < |c| && c[t] == names[i];
      assert IsFirstSpelling(procs, session, c[t]);
    }
  }

  /** A rearrangement still lists every eligible process. */
  lemma PermutedKeepsEligible(c: seq<string>, names: seq<string>, procs: seq<ProcessInfo>, session: int)
    requires multiset(names) == multiset(c)
    requires ListsEveryEligible(c, procs, session)
    ensures ListsEveryEligible(names, procs, session)
  {
    forall k | 0 <= k < |procs| && Eligible(procs[k], session)
      ensures ContainsIgnoreCase(names, DisplayName(procs[k].name))
    {
      assert ContainsIgnoreCase(c, DisplayName(procs[k].name));
      var t :| 0 <= t < |c| && SameIgnoreCase(c[t], DisplayName(procs[k].name));
      assert c[t] in multiset(names);
      var u :| 0 <= u < |names| && names[u] == c[t];
    }
  }

  /** First spellings of display names end in ".exe". */
  lemma FirstSpellingsEndInExe(names: seq<string>, procs: seq<ProcessInfo>, session: int)
    requires FirstSpellings(names, procs, session)
    ensures forall i :: 0 <= i < |names| ==> EndsWithIgnoreCase(names[i], ".exe")
  {
    forall i | 0 <= i < |names| ensures EndsWithIgnoreCase(names[i], ".exe") {
      var k :| FirstSpelling(procs, session, k, names[i]);
    }
  }

  /** A strictly increasing rearrangement of a name set with the set's properties is a picker
      list. */
  lemma SortedRearrangementIsPickList(c: seq<string>, names: seq<string>, procs: seq<ProcessInfo>, session: int)
    requires FirstSpellings(c, procs, session) && ListsEveryEligible(c, procs, session)
    requires multiset(names) == multiset(c) && StrictlySorted(names)
    ensures IsPickList(names, procs, session)
  {
    SortedIsDistinct(names);
    PermutedKeepsFirstSpellings(c, names, procs, session);
    PermutedKeepsEligible(c, names, procs, session);
    FirstSpellingsEndInExe(names, procs, session);
  }

  /** The sorted name set is a picker list. */
  lemma PickListOfCandidates(procs: seq<ProcessInfo>, session: int)
    ensures IsPickList(SortIgnoreCase(Candidates(procs, session)), procs, session)
  {
    var c := Candidates(procs, session);
    CandidatesFirstSpellings(procs, session);
    CandidatesListEveryEligible(procs, session);
    CandidatesDistinct(procs, session);
    SortSpec(c);
    SortedRearrangementIsPickList(c, SortIgnoreCase(c), procs, session);
  }

  /** GetUserProcessNamesForPick over the process table `procs`, for the caller's session. */
  method GetUserProcessNamesForPick(procs: seq<ProcessInfo>, mySession: int) returns (names: seq<string>)
    ensures names == SortIgnoreCase(Candidates(procs, mySession))
    ensures IsPickList(names, procs, mySession)
  {
    var found: seq<string> := [];
    for i := 0 to |procs|
      invariant found == Candidates(procs[..i], mySession)
    {
      var p := procs[i];
      assert procs[..i + 1][..i] == procs[..i];
      if p.accessible && p.sessionId == mySession && !IsSystemLike(p.name) && p.mainWindow != 0 {
        var n := if EndsWithIgnoreCase(p.name, ".exe") then p.name else p.name + ".exe";
        if !ContainsIgnoreCase(found, n) {
          found := found + [n];
        }
      }
    }
    assert procs[..|procs|] == procs;
    names := SortIgnoreCase(found);
    PickListOfCandidates(procs, mySession);
  }
}

=== FILE: target.dfy ===
/** Resolving the process box's text to the window to capture (the first part of
    BtnCapture_Click): the name is trimmed and defaulted, a trailing ".exe" is dropped, the
    processes of that name are looked up, and the first of them with a main window wins.
    Process.GetProcessesByName is modelled by filtering the process table. */
module CaptureTarget {
  import opened Text
  import opened Processes

  /** The name the user chose: the box's text trimmed, or "game.exe" when that leaves nothing. */
  function ChosenName(text: string): (r: string)
    ensures r != []
  {
    var t := Trim(text);
    if t == [] then "game.exe" else t
  }

  /** The name handed to GetProcessesByName: `chosen` without a trailing ".exe" in any case. */
  function LookupName(chosen: string): (r: string)
    ensures |r| <= |chosen| && r == chosen[..|r|]
    ensures |r| < |chosen| <==> EndsWithIgnoreCase(chosen, ".exe")
    ensures |r| < |chosen| ==> |r| == |chosen| - 4
  {
    if EndsWithIgnoreCase(chosen, ".exe") then chosen[..|chosen| - 4] else chosen
  }

  /** `p` is one of the processes GetProcessesByName(name) returns. */
  predicate Matches(p: ProcessInfo, name: string) {
    SameIgnoreCase(p.name, name)
  }

  /** Process.GetProcessesByName(name), reduced to each match's main window handle (0 for a
      process without one), in table order.  Names are compared ignoring case. */
  function HandlesByName(table: seq<ProcessInfo>, name: string): (r: seq<int>)
    ensures |r| <= |table|
    decreases |table|
  {
    if table == [] then []
    else
      var rest := HandlesByName(table[1..], name);
      if Matches(table[0], name) then [table[0].mainWindow] + rest else rest
  }

  /** `hwnd` is the first non-zero handle of `handles`. */
  predicate IsFirstWindow(handles: seq<int>, hwnd: int) {
    hwnd != 0
    && exists i :: 0 <= i < |handles| && handles[i] == hwnd && forall j :: 0 <= j < i ==> handles[j] == 0
  }

  /** The foreach loop that keeps the first process whose MainWindowHandle is not zero. */
  method FirstWindow(handles: seq<int>) returns (hwnd: int)
    ensures hwnd == 0 <==> forall i :: 0 <= i < |handles| ==> handles[i] == 0
    ensures hwnd != 0 ==> IsFirstWindow(handles, hwnd)
  {
    for i := 0 to |handles|
      invariant forall j :: 0 <= j < i ==> handles[j] == 0
    {
      if handles[i] == 0 {
        continue;
      }
      hwnd := handles[i];
      return;
    }
    hwnd := 0;
  }

  /** How the lookup ended: no process of that name, processes but no window, or a window. */
  datatype Target = NotFound(chosen: string) | NoWindow | Window(hwnd: int)

  /** `r` is how resolving the box text `text` against the process table ends: not found when
      no process has the lookup name, no window when none of them has a main window, otherwise
      the first main window among them. */
  predicate Resolves(text: string, table: seq<ProcessInfo>, r: Target) {
    var handles := HandlesByName(table, LookupName(ChosenName(text)));
    && (r.NotFound? <==> handles == [])
    && (r.NotFound? ==> r.chosen == ChosenName(text))
    && (r.NoWindow? <==> handles != [] && forall i :: 0 <= i < |handles| ==> handles[i] == 0)
    && (r.Window? ==> IsFirstWindow(handles, r.hwnd))
  }

  /** The resolution is determined by the text and the table. */
  lemma ResolvesUniquely(text: string, table: seq<ProcessInfo>, a: Target, b: Target)
    requires Resolves(text, table, a) && Resolves(text, table, b)
    ensures a == b
  {
    if a.Window? && b.Window? {
      var handles := HandlesByName(table, LookupName(ChosenName(text)));
      var i :| 0 <= i < |handles| && handles[i] == a.hwnd && forall j :: 0 <= j < i ==> handles[j] == 0;
      var k :| 0 <= k < |handles| && handles[k] == b.hwnd && forall j :: 0 <= j < k ==> handles[j] == 0;
      assert i == k;
    }
  }

  /** The handle resolution of BtnCapture_Click, up to the call that reads the screen.  The
      fallback to the first process's handle can only restore a zero handle, so a name whose
      processes all lack a window ends in NoWindow. */
  method ResolveTarget(text: string, table: seq<ProcessInfo>) returns (r: Target)
    ensures Resolves(text, table, r)
    ensures ResolvesInTable(text, table, r)
  {
    var chosen := ChosenName(text);
    var procName := LookupName(chosen);
    var processes := HandlesByName(table, procName);
    if |processes| == 0 {
      r := NotFound(chosen);
    } else {
      var hwnd := FirstWindow(processes);
      if hwnd == 0 {
        hwnd := processes[0];
      }
      r := if hwnd == 0 then NoWindow else Window(hwnd);
    }
    ResolvesInTableIff(text, table, r);
  }

  /** Only matching processes contribute handles: there are none iff no process matches. */
  lemma {:induction false} HandlesEmptyIff(table: seq<ProcessInfo>, name: string)
    ensures HandlesByName(table, name) == [] <==> forall k :: 0 <= k < |table| ==> !Matches(table[k], name)
    decreases |table|
  {
    if table != [] {
      HandlesEmptyIff(table[1..], name);
      assert forall k :: 1 <= k < |table| ==> table[1..][k - 1] == table[k];
    }
  }

  /** Every handle is zero iff every matching process lacks a main window. */
  lemma {:induction false} HandlesAllZeroIff(table: seq<ProcessInfo>, name: string)
    ensures var handles := HandlesByName(table, name);
      (forall i :: 0 <= i < |handles| ==> handles[i] == 0)
      <==> forall k :: 0 <= k < |table| && Matches(table[k], name) ==> table[k].mainWindow == 0
    decreases |table|
  {
    if table != [] {
      HandlesAllZeroIff(table[1..], name);
      var rest := HandlesByName(table[1..], name);
      assert forall k :: 1 <= k < |table| ==> table[1..][k - 1] == table[k];
      if Matches(table[0], name) {
        var handles := [table[0].mainWindow] + rest;
        assert HandlesByName(table, name) == handles;
        assert forall i :: 1 <= i < |handles| ==> handles[i] == rest[i - 1];
        assert (forall i :: 0 <= i < |handles| ==> handles[i] == 0)
          <==> table[0].mainWindow == 0 && forall i :: 0 <= i < |rest| ==> rest[i] == 0 by {
          if table[0].mainWindow == 0 && forall i :: 0 <= i < |rest| ==> rest[i] == 0 {
            forall i | 0 <= i < |handles| ensures handles[i] == 0 {
              if 0 < i {
                assert handles[i] == rest[i - 1];
              }
            }
          }
          if forall i :: 0 <= i < |handles| ==> handles[i] == 0 {
            assert handles[0] == 0;
            forall i | 0 <= i < |rest| ensures rest[i] == 0 {
              assert handles[i + 1] == rest[i];
            }
          }
        }
      }
    }
  }

  /** `hwnd` is the main window of the first process in table order that matches `name` and has
      a main window. */
  predicate FirstMatchingWindow(table: seq<ProcessInfo>, name: string, hwnd: int) {
    hwnd != 0
    && exists k :: (0 <= k < |table| && Matches(table[k], name) && table[k].mainWindow == hwnd
      && forall j :: 0 <= j < k && Matches(table[j], name) ==> table[j].mainWindow == 0)
  }

  lemma IsFirstWindowCons(x: int, rest: seq<int>, hwnd: int)
    ensures IsFirstWindow([x] + rest, hwnd) <==> hwnd != 0 && (x == hwnd || (x == 0 && IsFirstWindow(rest, hwnd)))
  {
    var s := [x] + rest;
    assert forall i :: 1 <= i < |s| ==> s[i] == rest[i - 1];
    if hwnd != 0 && x == hwnd {
      assert s[0] == hwnd;
    }
    if IsFirstWindow(s, hwnd) && x != hwnd {
      var i :| 0 <= i < |s| && s[i] == hwnd && forall j :: 0 <= j < i ==> s[j] == 0;
      assert 0 < i && s[0] == 0;
      assert rest[i - 1] == hwnd && forall j :: 0 <= j < i - 1 ==> rest[j] == s[j + 1];
    }
    if hwnd != 0 && x == 0 && IsFirstWindow(rest, hwnd) {
      var i :| 0 <= i < |rest| && rest[i] == hwnd && forall j :: 0 <= j < i ==> rest[j] == 0;
      assert s[i + 1] == hwnd;
      forall j | 0 <= j < i + 1 ensures s[j] == 0 {
        if 0 < j {
          assert s[j] == rest[j - 1];
        }
      }
    }
  }

  lemma FirstMatchingWindowFromTail(table: seq<ProcessInfo>, name: string, hwnd: int)
    requires table != [] && FirstMatchingWindow(table[1..], name, hwnd)
    requires Matches(table[0], name) ==> table[0].mainWindow == 0
    ensures FirstMatchingWindow(table, name, hwnd)
  {
    var tail := table[1..];
    var k :| 0 <= k < |tail| && Matches(tail[k], name) && tail[k].mainWindow == hwnd
      && forall j :: 0 <= j < k && Matches(tail[j], name) ==> tail[j].mainWindow == 0;
    assert table[k + 1] == tail[k];
    forall j | 0 <= j < k + 1 && Matches(table[j], name) ensures table[j].mainWindow == 0 {
      if 0 < j {
        assert table[j] == tail[j - 1];
      }
    }
  }

  lemma FirstMatchingWindowToTail(table: seq<ProcessInfo>, name: string, hwnd: int)
    requires table != [] && FirstMatchingWindow(table, name, hwnd)
    requires !(Matches(table[0], name) && table[0].mainWindow == hwnd)
    ensures Matches(table[0], name) ==> table[0].mainWindow == 0
    ensures FirstMatchingWindow(table[1..], name, hwnd)
  {
    var tail := table[1..];
    var k :| 0 <= k < |table| && Matches(table[k], name) && table[k].mainWindow == hwnd
      && forall j :: 0 <= j < k && Matches(table[j], name) ==> table[j].mainWindow == 0;
    assert 0 < k;
    assert tail[k - 1] == table[k];
    forall j | 0 <= j < k - 1 && Matches(tail[j], name) ensures tail[j].mainWindow == 0 {
      assert tail[j] == table[j + 1];
    }
  }

  lemma FirstMatchingWindowStep(table: seq<ProcessInfo>, name: string, hwnd: int)
    requires table != []
    ensures FirstMatchingWindow(table, name, hwnd) <==>
      if Matches(table[0], name) then
        hwnd != 0 && (table[0].mainWindow == hwnd || (table[0].mainWindow == 0 && FirstMatchingWindow(table[1..], name, hwnd)))
      else FirstMatchingWindow(table[1..], name, hwnd)
  {
    if FirstMatchingWindow(table, name, hwnd) && !(Matches(table[0], name) && table[0].mainWindow == hwnd) {
      FirstMatchingWindowToTail(table, name, hwnd);
    }
    if FirstMatchingWindow(table[1..], name, hwnd) && (Matches(table[0], name) ==> table[0].mainWindow == 0) {
      FirstMatchingWindowFromTail(table, name, hwnd);
    }
    if Matches(table[0], name) && hwnd != 0 && table[0].mainWindow == hwnd {
      assert Matches(table[0], name) && table[0].mainWindow == hwnd;
    }
  }

  /** The first non-zero handle the lookup returns is the main window of the first matching
      process, in table order, that has one. */
  lemma {:induction false} HandlesFirstWindowIff(table: seq<ProcessInfo>, name: string, hwnd: int)
    ensures IsFirstWindow(HandlesByName(table, name), hwnd) <==> FirstMatchingWindow(table, name, hwnd)
    decreases |table|
  {
    if table == [] {
      assert !IsFirstWindow([], hwnd);
    } else {
      HandlesFirstWindowIff(table[1..], name, hwnd);
      FirstMatchingWindowStep(table, name, hwnd);
      if Matches(table[0], name) {
        IsFirstWindowCons(table[0].mainWindow, HandlesByName(table[1..], name), hwnd);
      }
    }
  }

  /** Resolves, stated against the process table itself: not found iff no process matches the
      lookup name; no window iff some process matches and none of the matches has a main window;
      otherwise the main window of the first match, in table order, that has one. */
  predicate ResolvesInTable(text: string, table: seq<ProcessInfo>, r: Target) {
    var name := LookupName(ChosenName(text));
    && (r.NotFound? <==> forall k :: 0 <= k < |table| ==> !Matches(table[k], name))
    && (r.NotFound? ==> r.chosen == ChosenName(text))
    && (r.NoWindow? <==>
          (exists k :: 0 <= k < |table| && Matches(table[k], name))
          && (forall k :: 0 <= k < |table| && Matches(table[k], name) ==> table[k].mainWindow == 0))
    && (r.Window? ==> FirstMatchingWindow(table, name, r.hwnd))
  }

  /** The two statements of the resolution agree. */
  lemma ResolvesInTableIff(text: string, table: seq<ProcessInfo>, r: Target)
    ensures Resolves(text, table, r) <==> ResolvesInTable(text, table, r)
  {
    var name := LookupName(ChosenName(text));
    HandlesEmptyIff(table, name);
    HandlesAllZeroIff(table, name);
    if r.Window? {
      HandlesFirstWindowIff(table, name, r.hwnd);
    }
  }

  /** Lookups compare names ignoring case, so equal-ignoring-case names find the same processes. */
  lemma {:induction false} HandlesIgnoreCase(table: seq<ProcessInfo>, a: string, b: string)
    requires SameIgnoreCase(a, b)
    ensures HandlesByName(table, a) == HandlesByName(table, b)
    decreases |table|
  {
    if table != [] {
      HandlesIgnoreCase(table[1..], a, b);
    }
  }

  /** Every process of the table whose name matches contributes its handle. */
  lemma {:induction false} HandlesByNameFinds(table: seq<ProcessInfo>, name: string, k: nat)
    requires k < |table| && SameIgnoreCase(table[k].name, name)
    ensures table[k].mainWindow in HandlesByName(table, name)
    decreases k
  {
    if k > 0 {
      HandlesByNameFinds(table[1..], name, k - 1);
    }
  }

  lemma FoldExe(e: string)
    requires |e| == 4 && SameIgnoreCase(e, ".exe")
    ensures e[3] == 'e' || e[3] == 'E'
  {
    assert Fold(e)[3] == Fold(".exe")[3];
  }

  /** A name typed with or without ".exe" (in any letter case) looks up the same processes:
      "game" and "game.EXE" both look up "game". */
  lemma SuffixAgnostic(t: string, e: string)
    requires t != [] && !IsWhiteSpace(t[0]) && !IsWhiteSpace(t[|t| - 1])
    requires !EndsWithIgnoreCase(t, ".exe")
    requires |e| == 4 && SameIgnoreCase(e, ".exe")
    ensures LookupName(ChosenName(t + e)) == t
    ensures LookupName(ChosenName(t)) == t
  {
    FoldExe(e);
    TrimOfTrimmed(t);
    TrimOfTrimmed(t + e);
    assert (t + e)[|t + e| - 4..] == e;
    assert (t + e)[..|t|] == t;
  }

  /** Blanks typed around the name do not change the chosen name. */
  lemma ChosenNameIgnoresPadding(a: string, text: string, b: string)
    requires AllWhiteSpace(a) && AllWhiteSpace(b)
    ensures ChosenName(a + text + b) == ChosenName(text)
  {
    TrimIgnoresPadding(a, text, b);
  }

  /** A box holding a name with non-blank ends, with or without blanks around it, chooses exactly
      that name; together with BlankNameIsGame this fixes the chosen name of every box text. */
  lemma ChosenNameOfPadded(a: string, t: string, b: string)
    requires AllWhiteSpace(a) && AllWhiteSpace(b)
    requires t != [] && !IsWhiteSpace(t[0]) && !IsWhiteSpace(t[|t| - 1])
    ensures ChosenName(a + t + b) == t
  {
    TrimPadded(a, t, b);
  }

  /** A name typed with blanks around it and ".exe" in any letter case after it looks up the bare
      name: " game.EXE " looks up "game". */
  lemma PaddedNameLooksUpBareName(a: string, t: string, e: string, b: string)
    requires AllWhiteSpace(a) && AllWhiteSpace(b)
    requires t != [] && !IsWhiteSpace(t[0]) && !IsWhiteSpace(t[|t| - 1])
    requires !EndsWithIgnoreCase(t, ".exe")
    requires |e| == 4 && SameIgnoreCase(e, ".exe")
    ensures LookupName(ChosenName(a + (t + e) + b)) == t
  {
    ChosenNameIgnoresPadding(a, t + e, b);
    SuffixAgnostic(t, e);
  }

  /** An empty or blank box looks up "game". */
  lemma BlankNameIsGame(text: string)
    requires forall k :: 0 <= k < |text| ==> IsWhiteSpace(text[k])
    ensures ChosenName(text) == "game.exe"
    ensures LookupName(ChosenName(text)) == "game"
  {
    assert EndsWithIgnoreCase("game.exe", ".exe") by {
      assert "game.exe"[4..] == ".exe";
    }
    assert "game.exe"[..4] == "game";
  }

  /** Choosing a name from the picker list finds the process it was listed for, when that
      process's own name has no surrounding blanks and no ".exe" ending of its own. */
  lemma ListedNameFindsProcess(table: seq<ProcessInfo>, k: nat)
    requires k < |table|
    requires var n := table[k].name;
      n != [] && !IsWhiteSpace(n[0]) && !IsWhiteSpace(n[|n| - 1]) && !EndsWithIgnoreCase(n, ".exe")
    ensures LookupName(ChosenName(DisplayName(table[k].name))) == table[k].name
    ensures table[k].mainWindow in HandlesByName(table, LookupName(ChosenName(DisplayName(table[k].name))))
  {
    var n := table[k].name;
    assert SameIgnoreCase(".exe", ".exe");
    SuffixAgnostic(n, ".exe");
    HandlesByNameFinds(table, n, k);
  }
}

=== FILE: text.dfy ===
/** String operations with the meaning of the .NET calls the window code relies on:
    ordinal case-insensitive comparison (StringComparer.OrdinalIgnoreCase), ToLowerInvariant,
    Trim, and the decimal rendering of a non-negative int.  Case folding is modelled for ASCII
    letters only; every non-ASCII character compares by its code point. */
module Text {

  /** Upper-case folding of one character, as OrdinalIgnoreCase folds ASCII letters. */
  function Upper(c: char): char {
    if 'a' <= c <= 'z' then (c as int - 32) as char else c
  }

  /** Lower-case mapping of one character, as ToLowerInvariant maps ASCII letters. */
  function Lower(c: char): char {
    if 'A' <= c <= 'Z' then (c as int + 32) as char else c
  }

  /** The key OrdinalIgnoreCase compares: every character folded to upper case. */
  function Fold(s: string): string {
    seq(|s|, i requires 0 <= i < |s| => Upper(s[i]))
  }

  function ToLowerInvariant(s: string): string {
    seq(|s|, i requires 0 <= i < |s| => Lower(s[i]))
  }

  /** string.Equals(a, b, StringComparison.OrdinalIgnoreCase) */
  predicate SameIgnoreCase(a: string, b: string) {
    Fold(a) == Fold(b)
  }

  /** s.EndsWith(suffix, StringComparison.OrdinalIgnoreCase) */
  predicate EndsWithIgnoreCase(s: string, suffix: string) {
    |suffix| <= |s| && SameIgnoreCase(s[|s| - |suffix|..], suffix)
  }

  lemma FoldAppend(a: string, b: string)
    ensures Fold(a + b) == Fold(a) + Fold(b)
  {
    assert forall i :: 0 <= i < |a + b| ==> Fold(a + b)[i] == (Fold(a) + Fold(b))[i];
  }

  /** Appending a suffix that folds to `suffix` makes a string end with it, whatever came before. */
  lemma EndsWithAppended(s: string, suffix: string)
    ensures EndsWithIgnoreCase(s + suffix, suffix)
  {
    assert (s + suffix)[|s + suffix| - |suffix|..] == suffix;
  }

  /** Strict lexicographic order on character codes; a proper prefix comes first. */
  predicate LexLess(a: string, b: string)
    decreases |a|
  {
    if a == [] then b != []
    else b != [] && (a[0] < b[0] || (a[0] == b[0] && LexLess(a[1..], b[1..])))
  }

  /** StringComparer.OrdinalIgnoreCase.Compare(a, b) < 0 */
  predicate LessIgnoreCase(a: string, b: string) {
    LexLess(Fold(a), Fold(b))
  }

  /** The order is ascending and ignores case: "a.exe" sorts before "B.exe", while "b.exe" does
      not sort before "A.exe". */
  lemma LessIgnoreCaseAscending()
    ensures LessIgnoreCase("a.exe", "B.exe") && !LessIgnoreCase("b.exe", "A.exe")
  {
    assert Fold("a.exe")[0] == 'A' && Fold("B.exe")[0] == 'B';
    assert Fold("b.exe")[0] == 'B' && Fold("A.exe")[0] == 'A';
  }

  lemma {:induction false} LexLessIrreflexive(a: string)
    ensures !LexLess(a, a)
    decreases |a|
  {
    if a != [] {
      LexLessIrreflexive(a[1..]);
    }
  }

  lemma {:induction false} LexLessTransitive(a: string, b: string, c: string)
    requires LexLess(a, b) && LexLess(b, c)
    ensures LexLess(a, c)
    decreases |a|
  {
    if a != [] && a[0] == b[0] && b[0] == c[0] {
      LexLessTransitive(a[1..], b[1..], c[1..]);
    }
  }

  /** Any two different strings are ordered one way or the other. */
  lemma {:induction false} LexLessTotal(a: string, b: string)
    requires a != b
    ensures LexLess(a, b) || LexLess(b, a)
    decreases |a|
  {
    if a != [] && b != [] && a[0] == b[0] {
      assert a == [a[0]] + a[1..] && b == [b[0]] + b[1..];
      LexLessTotal(a[1..], b[1..]);
    }
  }

  lemma LexLessAsymmetric(a: string, b: string)
    requires LexLess(a, b)
    ensures !LexLess(b, a)
  {
    if LexLess(b, a) {
      LexLessTransitive(a, b, a);
      LexLessIrreflexive(a);
    }
  }

  /** char.IsWhiteSpace: the separators of the Unicode categories Zs, Zl and Zp plus the
      control characters U+0009 to U+000D and U+0085. */
  predicate IsWhiteSpace(c: char) {
    c == ' ' || '\t' <= c <= '\r' || c == '\U{85}' || c == '\U{A0}' || c == '\U{1680}'
    || '\U{2000}' <= c <= '\U{200A}' || c == '\U{2028}' || c == '\U{2029}'
    || c == '\U{202F}' || c == '\U{205F}' || c == '\U{3000}'
  }

  /** The number of white-space characters `s` starts with. */
  function LeadingWhiteSpace(s: string): (n: nat)
    ensures n <= |s|
    ensures forall k :: 0 <= k < n ==> IsWhiteSpace(s[k])
    ensures n < |s| ==> !IsWhiteSpace(s[n])
    decreases |s|
  {
    if s != [] && IsWhiteSpace(s[0]) then 1 + LeadingWhiteSpace(s[1..]) else 0
  }

  /** Where the white space that s[..m] ends with starts, looking no further left than `lo`;
      `s` holds only white space after `m`. */
  function TrailingWhiteSpace(s: string, lo: nat, m: nat): (r: nat)
    requires lo <= m <= |s|
    requires forall k :: m <= k < |s| ==> IsWhiteSpace(s[k])
    ensures lo <= r <= m
    ensures forall k :: r <= k < |s| ==> IsWhiteSpace(s[k])
    ensures lo < r ==> !IsWhiteSpace(s[r - 1])
    decreases m
  {
    if lo < m && IsWhiteSpace(s[m - 1]) then TrailingWhiteSpace(s, lo, m - 1) else m
  }

  /** `r` is the slice of `s` that starts at `i`, and everything of `s` around it is white space. */
  ghost predicate TrimmedAt(s: string, i: int, r: string) {
    0 <= i && i + |r| <= |s| && r == s[i..i + |r|]
    && (forall k :: 0 <= k < i ==> IsWhiteSpace(s[k]))
    && (forall k :: i + |r| <= k < |s| ==> IsWhiteSpace(s[k]))
  }

  /** string.Trim(): the largest slice of `s` that neither starts nor ends with white space. */
  function Trim(s: string): (r: string)
    ensures exists i :: TrimmedAt(s, i, r)
    ensures r != [] ==> !IsWhiteSpace(r[0]) && !IsWhiteSpace(r[|r| - 1])
    ensures r == [] <==> forall k :: 0 <= k < |s| ==> IsWhiteSpace(s[k])
  {
    var lo := LeadingWhiteSpace(s);
    var hi := TrailingWhiteSpace(s, lo, |s|);
    assert lo < |s| ==> lo < hi;
    assert TrimmedAt(s, lo, s[lo..hi]);
    s[lo..hi]
  }

  /** A string whose ends are not white space is its own trim. */
  lemma TrimOfTrimmed(s: string)
    requires s != [] ==> !IsWhiteSpace(s[0]) && !IsWhiteSpace(s[|s| - 1])
    ensures Trim(s) == s
  {
    var lo := LeadingWhiteSpace(s);
    var hi := TrailingWhiteSpace(s, lo, |s|);
    assert lo == 0;
    assert hi == |s|;
    assert s[lo..hi] == s;
  }

  /** White space around a text whose ends are not white space is what Trim removes. */
  lemma TrimPadded(a: string, t: string, b: string)
    requires AllWhiteSpace(a) && AllWhiteSpace(b)
    requires t != [] ==> !IsWhiteSpace(t[0]) && !IsWhiteSpace(t[|t| - 1])
    ensures Trim(a + t + b) == t
  {
    var s := a + t + b;
    assert forall k :: 0 <= k < |a| ==> s[k] == a[k];
    assert forall k :: |a| + |t| <= k < |s| ==> s[k] == b[k - |a| - |t|];
    if t == [] {
      assert forall k :: 0 <= k < |s| ==> IsWhiteSpace(s[k]);
    } else {
      assert s[|a|] == t[0] && s[|a| + |t| - 1] == t[|t| - 1];
      var lo := LeadingWhiteSpace(s);
      assert lo == |a|;
      var hi := TrailingWhiteSpace(s, lo, |s|);
      assert hi == |a| + |t|;
      assert s[lo..hi] == t;
    }
  }

  predicate AllWhiteSpace(s: string) {
    forall k :: 0 <= k < |s| ==> IsWhiteSpace(s[k])
  }

  lemma AllWhiteSpaceConcat(x: string, y: string)
    requires AllWhiteSpace(x) && AllWhiteSpace(y)
    ensures AllWhiteSpace(x + y)
  {
    assert forall k :: |x| <= k < |x + y| ==> (x + y)[k] == y[k - |x|];
  }

  lemma AllWhiteSpaceSlice(s: string, i: int, j: int)
    requires 0 <= i <= j <= |s|
    requires forall k :: i <= k < j ==> IsWhiteSpace(s[k])
    ensures AllWhiteSpace(s[i..j])
  {
    assert forall k :: 0 <= k < j - i ==> s[i..j][k] == s[i + k];
  }

  lemma Regroup(a: string, f: string, t: string, k: string, b: string)
    ensures a + (f + t + k) + b == (a + f) + t + (k + b)
  {
  }

  /** A text made of white space, `t` and white space, padded with more white space, trims to `t`. */
  lemma TrimPaddedParts(a: string, front: string, t: string, back: string, b: string)
    requires AllWhiteSpace(a) && AllWhiteSpace(front) && AllWhiteSpace(back) && AllWhiteSpace(b)
    requires t != [] ==> !IsWhiteSpace(t[0]) && !IsWhiteSpace(t[|t| - 1])
    ensures Trim(a + (front + t + back) + b) == t
  {
    AllWhiteSpaceConcat(a, front);
    AllWhiteSpaceConcat(back, b);
    Regroup(a, front, t, back, b);
    TrimPadded(a + front, t, back + b);
  }

  /** White space added around a text does not change its trim. */
  lemma TrimIgnoresPadding(a: string, text: string, b: string)
    requires AllWhiteSpace(a) && AllWhiteSpace(b)
    ensures Trim(a + text + b) == Trim(text)
  {
    var t := Trim(text);
    var i :| TrimmedAt(text, i, t);
    var j := i + |t|;
    var front, back := text[..i], text[j..];
    AllWhiteSpaceSlice(text, 0, i);
    AllWhiteSpaceSlice(text, j, |text|);
    assert text[0..i] == front && text[j..|text|] == back;
    assert text == front + t + back;
    TrimPaddedParts(a, front, t, back, b);
  }

  predicate IsDigit(c: char) {
    '0' <= c <= '9'
  }

  predicate AllDigits(s: string) {
    forall k :: 0 <= k < |s| ==> IsDigit(s[k])
  }

  function DigitChar(d: nat): (c: char)
    requires d < 10
    ensures IsDigit(c)
  {
    ('0' as int + d) as char
  }

  function DigitValue(c: char): (d: nat)
    requires IsDigit(c)
    ensures d < 10 && DigitChar(d) == c
  {
    c as int - '0' as int
  }

  /** int.ToString() of a non-negative value: its decimal digits, without leading zeros. */
  function Decimal(n: nat): (r: string)
    ensures r != [] && AllDigits(r)
    ensures r[0] == '0' ==> n == 0
    decreases n
  {
    if n < 10 then [DigitChar(n)] else Decimal(n / 10) + [DigitChar(n % 10)]
  }

  /** The value of a run of decimal digits. */
  function DecimalValue(s: string): nat
    requires AllDigits(s)
    decreases |s|
  {
    if s == [] then 0 else DecimalValue(s[..|s| - 1]) * 10 + DigitValue(s[|s| - 1])
  }

  /** Reading back the digits of `n` gives `n`. */
  lemma {:induction false} DecimalRoundTrip(n: nat)
    ensures DecimalValue(Decimal(n)) == n
    decreases n
  {
    var r := Decimal(n);
    if n >= 10 {
      DecimalRoundTrip(n / 10);
      assert r[..|r| - 1] == Decimal(n / 10);
    }
  }
}

=== FILE: window.dfy ===
/** The state of the main window that the capture, selection and export handlers share, and
    the handlers themselves (MainWindow.xaml.cs).  The image is represented by its presence and
    pixel size; the process table and the screen are inputs. */
module Window {
  import opened Text
  import opened Geometry
  import opened Export
  import opened Processes
  import opened CaptureTarget

  datatype MouseButton = Left | Middle | Right | XButton1 | XButton2

  /** What reading the window's pixels produced: a bitmap of the given size, or an exception. */
  datatype Shot = Pixels(width: int, height: int) | Threw

  /** A shot that becomes the new image: a bitmap at least one pixel wide and high. */
  predicate Usable(s: Shot) {
    s.Pixels? && 1 <= s.width && 1 <= s.height
  }

  /** How a capture request ended. */
  datatype CaptureOutcome =
    | Unresolved(target: Target)
    | CaptureFailed(hwnd: int)
    | Captured(hwnd: int, width: int, height: int)

  /** The answer of the save dialog. */
  datatype Dialog = Cancelled | Chosen(path: string)

  /** How a save request ended. */
  datatype SaveOutcome =
    | NoImage
    | NoSelection
    | DialogCancelled(crop: Crop, suggested: string)
    | Saved(crop: Crop, suggested: string, path: string, encoder: Encoder)

  /** The selection controller's state, read off the flags and coordinates. */
  datatype SelectionState = Idle | Dragging(from: Point, to: Point) | Committed(sel: Rect)

  class MainWindow {
    /** CapturedImage.Source != null */
    var hasImage: bool
    var imgW: int
    var imgH: int
    var dragging: bool
    var start: Point
    var end: Point
    var hasSelection: bool
    var selX1: int
    var selY1: int
    var selX2: int
    var selY2: int
    /** HardcodedProcessList and the text of the process box. */
    var processList: seq<string>
    var comboText: string

    function Selection(): Rect
      reads this
    {
      Rect(selX1, selY1, selX2, selY2)
    }

    /** Every coordinate that a handler can still read lies inside the image: the drag corners
        while dragging, the stored selection while it is kept. */
    ghost predicate Valid()
      reads this
    {
      && 0 <= imgW && 0 <= imgH
      && (hasImage ==> 1 <= imgW && 1 <= imgH)
      && (!hasImage ==> !dragging && !hasSelection)
      && (dragging ==> Inside(start, imgW, imgH) && Inside(end, imgW, imgH) && !hasSelection)
      && (hasSelection ==> RectInside(Selection(), imgW, imgH) && HasArea(Selection()))
    }

    ghost function State(): SelectionState
      reads this
    {
      if dragging then Dragging(start, end)
      else if hasSelection then Committed(Selection())
      else Idle
    }

    /** The window as it opens: no image, no selection, and the process list filled once. */
    constructor (procs: seq<ProcessInfo>, session: int)
      ensures Valid() && !hasImage && State() == Idle
      ensures processList == SortIgnoreCase(Candidates(procs, session))
      ensures IsPickList(processList, procs, session)
      ensures comboText == if processList == [] then "" else processList[0]
    {
      hasImage := false;
      imgW, imgH := 0, 0;
      dragging := false;
      start, end := Point(0, 0), Point(0, 0);
      hasSelection := false;
      selX1, selY1, selX2, selY2 := 0, 0, 0, 0;
      processList := [];
      comboText := "";
      new;
      assert Valid() && State() == Idle;
      UpdateProcessList(procs, session);
      PickListOfCandidates(procs, session);
    }

    /** UpdateProcessList: appends the current names to the list and shows its first entry. */
    method UpdateProcessList(procs: seq<ProcessInfo>, session: int)
      modifies this`processList, this`comboText
      ensures processList == old(processList) + SortIgnoreCase(Candidates(procs, session))
      ensures comboText == if processList == [] then "" else processList[0]
    {
      var names := GetUserProcessNamesForPick(procs, session);
      processList := processList + names;
      comboText := if |processList| != 0 then processList[0] else "";
    }

    /** BtnRefresh_Click: the list is cleared and refilled, and its first entry shown. */
    method Refresh(procs: seq<ProcessInfo>, session: int)
      modifies this`processList, this`comboText
      ensures processList == SortIgnoreCase(Candidates(procs, session))
      ensures IsPickList(processList, procs, session)
      ensures comboText == if processList == [] then "" else processList[0]
    {
      processList := [];
      UpdateProcessList(procs, session);
      PickListOfCandidates(procs, session);
    }

    /** The user types into, or picks from, the editable process box. */
    method EnterProcessName(text: string)
      modifies this`comboText
      ensures comboText == text
    {
      comboText := text;
    }

    /** Image_MouseDown: with an image and the left button held, a new drag starts at the
        clamped point and any kept selection is dropped. */
    method MouseDown(p: Point, leftPressed: bool)
      requires Valid()
      modifies this`hasSelection, this`dragging, this`start, this`end
      ensures Valid()
      ensures if old(hasImage) && leftPressed
        then dragging && !hasSelection && start == Clamp(p, imgW, imgH) && end == start
          && State() == Dragging(start, start)
        else unchanged(this)
    {
      if !hasImage {
        return;
      }
      if !leftPressed {
        return;
      }
      hasSelection := false;
      dragging := true;
      start := Clamp(p, imgW, imgH);
      end := start;
    }

    /** Image_MouseMove: while dragging, the moving corner follows the clamped point. */
    method MouseMove(p: Point)
      requires Valid()
      modifies this`end
      ensures Valid()
      ensures if old(dragging) && hasImage
        then end == Clamp(p, imgW, imgH) && State() == Dragging(start, end)
        else unchanged(this)
    {
      if !dragging || !hasImage {
        return;
      }
      end := Clamp(p, imgW, imgH);
    }

    /** Image_MouseUp: releasing the left button ends the drag and stores the normalised
        rectangle of the two clamped corners; it is kept as the selection only if it has an
        area.  Any other release, or one outside a drag, changes nothing. */
    method MouseUp(p: Point, button: MouseButton)
      requires Valid()
      modifies this`dragging, this`end, this`selX1, this`selY1, this`selX2, this`selY2, this`hasSelection
      ensures Valid()
      ensures if old(dragging) && hasImage && button == Left
        then !dragging && end == Clamp(p, imgW, imgH)
          && Selection() == Normalize(start, end)
          && RectInside(Selection(), imgW, imgH)
          && hasSelection == HasArea(Selection())
          && State() == (if HasArea(Selection()) then Committed(Selection()) else Idle)
        else unchanged(this)
    {
      if !dragging || !hasImage {
        return;
      }
      if button != Left {
        return;
      }
      dragging := false;
      end := Clamp(p, imgW, imgH);
      var x1 := Min(start.x, end.x);
      var y1 := Min(start.y, end.y);
      var x2 := Max(start.x, end.x);
      var y2 := Max(start.y, end.y);
      var w := Max(0, x2 - x1);
      var h := Max(0, y2 - y1);
      selX1, selY1, selX2, selY2 := x1, y1, x2, y2;
      hasSelection := w > 0 && h > 0;
      NormalizeInside(start, end, imgW, imgH);
    }

    /** BtnCapture_Click: the selection is dropped first; then the box text is resolved to a
        window, whose pixels `grab` returns.  A bitmap of positive size replaces the image and
        ends any drag; every other ending leaves the image and the drag as they were. */
    method Capture(table: seq<ProcessInfo>, grab: int -> Shot) returns (outcome: CaptureOutcome)
      requires Valid()
      modifies this`hasSelection, this`hasImage, this`imgW, this`imgH, this`dragging
      ensures Valid()
      ensures !hasSelection
      ensures outcome.Unresolved? ==> !outcome.target.Window? && Resolves(comboText, table, outcome.target)
      ensures outcome.CaptureFailed? || outcome.Captured? ==> Resolves(comboText, table, Window(outcome.hwnd))
      ensures outcome.Captured? <==> !outcome.Unresolved? && Usable(grab(outcome.hwnd))
      ensures outcome.Captured? ==> grab(outcome.hwnd) == Pixels(outcome.width, outcome.height)
      ensures outcome.Captured? ==>
        hasImage && imgW == outcome.width && imgH == outcome.height && !dragging && State() == Idle
      ensures !outcome.Captured? ==>
        hasImage == old(hasImage) && imgW == old(imgW) && imgH == old(imgH) && dragging == old(dragging)
    {
      hasSelection := false;
      var target := ResolveTarget(comboText, table);
      if !target.Window? {
        return Unresolved(target);
      }
      var shot := grab(target.hwnd);
      var taken := TakeShot(shot);
      if !taken {
        return CaptureFailed(target.hwnd);
      }
      return Captured(target.hwnd, shot.width, shot.height);
    }

    /** The end of BtnCapture_Click once the pixels are read: a bitmap of positive size becomes
        the image and ends any drag.  A Bitmap of zero width or height cannot be constructed, so
        such a shot, like an exception, is reported and changes nothing. */
    method TakeShot(shot: Shot) returns (taken: bool)
      requires Valid() && !hasSelection
      modifies this`hasImage, this`imgW, this`imgH, this`dragging
      ensures Valid()
      ensures taken == Usable(shot)
      ensures taken ==> hasImage && Pixels(imgW, imgH) == shot && !dragging && State() == Idle
      ensures !taken ==> unchanged(this)
    {
      if !Usable(shot) {
        return false;
      }
      hasImage := true;
      imgW, imgH := shot.width, shot.height;
      dragging := false;
      return true;
    }

    /** BtnSaveCrop_Click: refused without an image or a kept selection; otherwise the crop is
        the selection itself, offered under its default name, and written with the encoder of
        the chosen file's extension. */
    method SaveCrop(dialog: Dialog) returns (r: SaveOutcome)
      requires Valid()
      ensures r.NoImage? <==> !hasImage
      ensures r.NoSelection? <==> hasImage && !hasSelection
      ensures hasImage && hasSelection ==>
        r.crop == Crop(selX1, selY1, selX2 - selX1, selY2 - selY1) && r.suggested == CropFileName(r.crop)
      ensures r.DialogCancelled? <==> hasImage && hasSelection && dialog.Cancelled?
      ensures r.Saved? ==> r.path == dialog.path && r.encoder == ChooseEncoder(dialog.path)
    {
      if !hasImage {
        return NoImage;
      }
      if !hasSelection {
        return NoSelection;
      }
      var crop := CropRect(Selection(), imgW, imgH);
      CropOfSelection(Selection(), imgW, imgH);
      var suggested := CropFileName(crop);
      if dialog.Cancelled? {
        return DialogCancelled(crop, suggested);
      }
      return Saved(crop, suggested, dialog.path, ChooseEncoder(dialog.path));
    }
  }

  /** With one process named "game" that has window 42, an empty box captures window 42. */
  lemma EmptyBoxFindsGame(game: ProcessInfo)
    requires game.name == "game" && game.mainWindow == 42
    ensures Resolves("", [game], Window(42))
  {
    BlankNameIsGame("");
    assert HandlesByName([game], "game") == [42];
    assert IsFirstWindow([42], 42) by {
      assert [42][0] == 42;
    }
  }

  lemma DecimalHundreds()
    ensures Decimal(500) == "500" && Decimal(700) == "700" && Decimal(100) == "100"
  {
    assert Decimal(5) == "5" && Decimal(7) == "7" && Decimal(1) == "1";
    assert Decimal(50) == "50" && Decimal(70) == "70" && Decimal(10) == "10";
  }

  /** The default name of the 700 x 100 crop at (0, 500). */
  lemma DragCropName()
    ensures CropFileName(Crop(0, 500, 700, 100)) == "crop_0_500_700x100"
  {
    DecimalHundreds();
    assert Decimal(0) == "0";
  }

  lemma ExeSuffixUpperCase()
    ensures SameIgnoreCase(".EXE", ".exe") && !EndsWithIgnoreCase("game", ".exe")
  {
    assert Fold(".EXE")[1] == 'E' == Fold(".exe")[1];
    assert Fold(".EXE")[2] == 'X' == Fold(".exe")[2];
    assert Fold(".EXE")[3] == 'E' == Fold(".exe")[3];
    assert Fold(".EXE") == Fold(".exe");
    assert Fold("game")[0] == 'G' != Fold(".exe")[0];
  }

  /** The box text " game.EXE " looks up "game". */
  lemma TypedBoxLooksUpGame()
    ensures LookupName(ChosenName(" " + ("game" + ".EXE") + " ")) == "game"
  {
    ExeSuffixUpperCase();
    assert IsWhiteSpace(' ');
    assert AllWhiteSpace(" ");
    PaddedNameLooksUpBareName(" ", "game", ".EXE", " ");
  }

  /** Any box text that looks up "game" resolves to the window of the "game" process. */
  lemma LooksUpGameFindsGame(text: string, game: ProcessInfo)
    requires LookupName(ChosenName(text)) == "game"
    requires game.name == "game" && game.mainWindow == 42
    ensures Resolves(text, [game], Window(42))
  {
    assert HandlesByName([game], "game") == [42];
    assert IsFirstWindow([42], 42) by {
      assert [42][0] == 42;
    }
  }

  /** A new window whose empty box captures an 800 x 600 shot of the "game" process. */
  method OpenOnGame(game: ProcessInfo) returns (w: MainWindow)
    requires game.name == "game" && game.mainWindow == 42
    ensures fresh(w) && w.Valid() && w.comboText == ""
    ensures w.hasImage && w.imgW == 800 && w.imgH == 600 && w.State() == Idle
  {
    w := new MainWindow([], 1);
    assert w.comboText == "";
    EmptyBoxFindsGame(game);
    var outcome := w.Capture([game], _ => Pixels(800, 600));
    if outcome.Unresolved? {
      ResolvesUniquely("", [game], Window(42), outcome.target);
    } else {
      ResolvesUniquely("", [game], Window(42), Window(outcome.hwnd));
    }
  }

  /** On an 800 x 600 image, the drag from (700, 650) to (-50, 500). */
  method DragAcrossTheEdgeOf(w: MainWindow)
    requires w.Valid() && w.hasImage && w.imgW == 800 && w.imgH == 600 && w.State() == Idle
    modifies w
    ensures w.Valid() && w.hasImage && w.imgW == 800 && w.imgH == 600 && w.comboText == old(w.comboText)
    ensures w.State() == Committed(Rect(0, 500, 700, 600))
  {
    DragAcrossTheEdge();
    w.MouseDown(Point(700, 650), true);
    assert w.start == Point(700, 600);
    w.MouseUp(Point(-50, 500), Left);
    assert w.end == Point(0, 500);
  }

  /** On an 800 x 600 capture, dragging from (700, 650) to (-50, 500) and saving under any name
      ending in ".JPG" crops 700 x 100 pixels at (0, 500), offered as crop_0_500_700x100 and
      written as JPEG. */
  method DragAcrossTheEdgeScenario(stem: string) returns (saved: SaveOutcome)
    ensures saved == Saved(Crop(0, 500, 700, 100), "crop_0_500_700x100", stem + ".JPG", Jpeg(95))
  {
    var w := OpenOnGame(ProcessInfo("game", 1, 42, true));
    DragAcrossTheEdgeOf(w);
    saved := w.SaveCrop(Chosen(stem + ".JPG"));
    assert saved.Saved? && saved.crop == Crop(0, 500, 700, 100);
    DragCropName();
    JpgIgnoresCase(stem);
  }

  /** A later capture of a 100 x 100 window keeps the old selection's coordinates, which now lie
      outside the image, but drops the selection itself: saving is refused until a new drag. */
  method StaleSelectionScenario(stem: string) returns (staleX2: int, width: int, saved: SaveOutcome)
    ensures staleX2 == 700 && width == 100 && staleX2 > width
    ensures saved == NoSelection
  {
    var game := ProcessInfo("game", 1, 42, true);
    var w := OpenOnGame(game);
    DragAcrossTheEdgeOf(w);
    EmptyBoxFindsGame(game);
    var outcome := w.Capture([game], _ => Pixels(100, 100));
    if outcome.Unresolved? {
      ResolvesUniquely("", [game], Window(42), outcome.target);
    } else {
      ResolvesUniquely("", [game], Window(42), Window(outcome.hwnd));
    }
    staleX2, width := w.selX2, w.imgW;
    saved := w.SaveCrop(Chosen(stem + ".png"));
  }

  /** Typing " game.EXE " into the box and capturing takes the window of the running "game"
      process: the blanks and the suffix in any letter case are dropped before the lookup. */
  method TypedNameScenario() returns (outcome: CaptureOutcome)
    ensures outcome == Captured(42, 640, 480)
  {
    var w := new MainWindow([], 1);
    var typed := " " + ("game" + ".EXE") + " ";
    w.EnterProcessName(typed);
    var game := ProcessInfo("game", 1, 42, true);
    TypedBoxLooksUpGame();
    LooksUpGameFindsGame(typed, game);
    outcome := w.Capture([game], _ => Pixels(640, 480));
    if outcome.Unresolved? {
      ResolvesUniquely(typed, [game], Window(42), outcome.target);
    } else {
      ResolvesUniquely(typed, [game], Window(42), Window(outcome.hwnd));
    }
  }
}
